=== FILE: README.md ===
# Davis WeatherLink Live driver: sensor resolution and normalisation

This project models the part of the WeeWX driver `daviswww.py` that turns
WeatherLink Live "current conditions" payloads into WeeWX loop packets. The
model covers five pieces:

- **Metric catalog** (`Catalog`). This is the `sensor_info` table, with the
  wind entries re-chosen by `wind_measurement`.
- **Transmitter registry** (`Registry`). This is `init_txids`: group default
  transmitter ids, overridden by `metric:txid` mapping tokens.
- **Reading index and resolver** (`Readings`, `Resolver`).
  - `parse_into_data` files every condition record under a
    (transmitter id, field) key.
  - `get_condition` picks the preferred transmitter's reading, else the
    first one in `transmitters_ordered`.
- **Rain handling** (`Rain`). This covers the collector scale factors,
  `scale_rain`, and the `track_total_rain` state machine. That state machine
  turns the monthly rain counter into per-packet amounts.
- **Driver** (`Driver`).
  - Construction: the `poll_interval` and `rain_collector` checks, and the
    wind entry selection by `wind_measurement` (with the integer conversion
    proposed under "## Findings"; the code as written is
    `Driver.WindTableAsWritten`).
  - One poll cycle: air quality payload first, then weather; timestamp; the
    per-metric loop that scales, post-processes and stores only readings
    that are present.

The rain baseline (`total_rain_scaled`) is the only state that outlives a
cycle. It is modelled as an explicit `Option<real>` that each cycle takes and
hands back.

Two support modules hold the text handling the driver relies on:

- `Text` covers whitespace splitting (`str.split()`), splitting on a
  character (`str.split(':')`), and decimal text of integers (`str(int)`).
- `Wrappers` holds `Option`.

Readings, scale factors and timestamps are `real`. JSON values are `Null` or
`Num(x)`. Post-processing is a closed tag, `NoPost | ScaleRain |
TrackTotalRain`, rather than a stored function.

Where the documentation and the code differ, the model follows the code:

- The configuration comments describe mappings by sensor type (`soil1`,
  `moist1`, …), but the code matches tokens against metric names
  (`soilTemp1`, …).
- The poll interval error message says 10, but the code accepts 5 to 600.
- The configuration comments give rain collector type 2 as 0.02 mm per tip, but the scale table uses 0.2 mm (line 56).
- The configuration comments give the default transmitter ordering as "12345678AIB" and show "A12345678IB" as the example, but the code's default is "12345678BIA" (line 248).

## Model

| member | source | states |
|---|---|---|
| Catalog.SensorTable | daviswww.py:212-221 | wind choice 0, 1 or 2 replaces the fields of `windSpeed` and `windDir` (latest, 1-minute or 2-minute average); any other value keeps the default 1-minute table; every other entry and every metric name stays as declared |
| Catalog.BaseTable | daviswww.py:179-211 | the 31 entries of the table literal in insertion order, each with its field name, factor 1, sensor type, group and post-processing as declared |
| Catalog.Lookup | daviswww.py:265-266 | a metric is found exactly when some entry carries it, and the entry found is the last one carrying it, as in a dictionary |
| Catalog.LookupUnique | daviswww.py:265-266 | in a table without repeated metric names, looking up an entry's metric yields that entry's sensor info |
| Catalog.TableMetricsUnique | daviswww.py:179-221 | for every wind choice no metric name occurs twice |
| Catalog.TableFieldsUnique | daviswww.py:179-221 | for every wind choice no two metrics read the same device field, so a registry entry belongs to one metric |
| Catalog.TableFreeOfHostKeys | daviswww.py:179-221 | no catalog metric is named `dateTime` or `usUnits`, so the loop never overwrites the packet's time or unit keys |
| Catalog.OnlyRainTracksTotal | daviswww.py:190-191 | for every wind choice the `rain` entry is the only one post-processed by the rain tracker |
| Catalog.RainRow | daviswww.py:190-191 | for every wind choice row 10 is `rain`, read from the monthly rainfall counter at factor 1 with rain tracking |
| Catalog.WindSpeedSlotAsWritten | daviswww.py:219-221 | the `windSpeed` slot as the constructor assigns it is a one-element tuple exactly when the wind choice is 2 |
| Rain.RainScaleFactor | daviswww.py:53-59 | collector types 1 to 4 have a positive factor (0.01 in, 0.2 mm, 0.1 in, 0.001 mm in inches); every other type has none |
| Rain.ValidCollector | daviswww.py:238-241 | a collector type outside 1 to 4 is replaced by 1; a valid type is kept |
| Rain.ValidCollectorHasFactor | daviswww.py:238-242 | after validation the factor lookup always succeeds with a positive factor, and an invalid type gets the 0.01 in factor |
| Rain.ScaleRainKeepsOrder | daviswww.py:83-87 | scaling by a positive factor keeps the order and equality of readings, so the reset test at line 75 on scaled values is the same test on raw counts |
| Rain.TrackTotalRain | daviswww.py:63-81 | the reading is scaled first; the first call reports 0; a reading at or above the baseline reports the rise; a reading below it reports the whole reading; the new baseline is always the scaled reading; a non-negative reading never gives a negative amount |
| Rain.RunTracker | daviswww.py:63-81 | calling the tracker on a sequence of readings yields one amount per reading, and leaves the scaled last reading as the baseline |
| Rain.TrackerSumsRise | daviswww.py:75-80 | over readings that never decrease, starting from a baseline no higher than the first, the amounts are non-negative and add up to the last reading minus the baseline |
| Rain.FirstRunSumsRise | daviswww.py:72-80 | from the first call on, over readings that never decrease, the first amount is 0 and the amounts add up to last minus first |
| Rain.TrackerNeverNegative | daviswww.py:75-80 | when no scaled reading is negative, no amount is negative, whatever counter resets occur |
| Rain.TrackerExample | daviswww.py:63-81 | readings 0, 0.5, 1.2, 0.3, 0.9 give amounts 0, 0.5, 0.7, 0.3, 0.6 |
| Registry.InitDefaults | daviswww.py:257-259 | the default pass gives an id to exactly the fields of the catalog |
| Registry.DefaultsByGroup | daviswww.py:257-259 | each field gets its group's default (`GroupDefault`, the `default_txids` table of line 257): weather id, soil id, "B", "I" or "A" (the last entry with that field decides) |
| Registry.ParseMapping | daviswww.py:264 | a token is split into metric and id exactly when it holds one colon; the two parts contain no colon and rejoin to the token |
| Registry.Override | daviswww.py:263-268 | a token is usable exactly when it has one colon and names a catalog metric; it then targets a catalog field |
| Registry.ApplyMappings | daviswww.py:261-268 | applying tokens never drops a field and adds only catalog fields |
| Registry.InitTxids | daviswww.py:255-268 | the registry has an id for exactly the catalog's fields |
| Registry.MappingsOfLayout | daviswww.py:255-268 | mapping text with any whitespace layout (tabs, repeated, leading or trailing blanks) applies exactly its tokens, in order, over the group defaults |
| Registry.UntargetedFieldKept | daviswww.py:261-268 | a field that no usable token targets keeps its earlier id |
| Registry.LastOverrideWins | daviswww.py:261-268 | a field targeted by usable tokens gets the id of the last of them |
| Registry.UnusableTokenIgnored | daviswww.py:263-268 | a token with no colon, several colons or an unknown metric changes nothing |
| Registry.UsableTokenSets | daviswww.py:263-266 | a token `metric:txid` for a known metric sets that metric's field to txid and changes nothing else |
| Registry.MappingOfMetric | daviswww.py:264 | `metric:txid` with no colon on either side splits back into metric and txid |
| Registry.OverrideOfEntry | daviswww.py:263-266 | with unique metric names, a token naming an entry's metric targets that entry's field |
| Registry.OverrideOfMetric | daviswww.py:263-266 | a token naming a known metric targets the field that a lookup of the metric finds |
| Registry.TwoOverrides | daviswww.py:255-268 | two usable tokens for different metrics each set their own field, and a third field keeps its group default |
| Registry.TwoTokensOf | daviswww.py:263-266 | tokens `m0:x` and `m1:y` for two known metrics target those metrics' fields with x and y |
| Registry.FirstOverrideLands | daviswww.py:261-268 | of two tokens targeting different fields, the first one's id survives the second |
| Registry.SecondOverrideLands | daviswww.py:261-268 | of two tokens, the second one's id is the final id of its field |
| Registry.OtherFieldSpared | daviswww.py:257-268 | a field neither of two tokens targets keeps its group default |
| Registry.ScenarioWords | daviswww.py:262 | the mapping text "outTemp:A windSpeed:5" splits into its two tokens |
| Registry.ScenarioTokens | daviswww.py:263-266 | those tokens target the outdoor temperature and wind speed fields with "A" and "5" |
| Registry.MappingScenario | daviswww.py:255-268 | with "outTemp:A windSpeed:5", `temp` comes from "A", the chosen wind speed field from "5", and every other field, outdoor humidity among them, keeps its group default |
| Registry.ScenarioRows | daviswww.py:179-221 | for every wind choice `outTemp` and `windSpeed` look up rows 0 and 6, whose fields are `temp` and the chosen wind speed field, and `outHumidity` reads `hum` in the weather group |
| Registry.ScenarioOnTable | daviswww.py:255-268 | on any table with those rows, the two scenario tokens set `temp` to "A" and the wind speed field to "5", and `hum` keeps the weather id |
| Registry.InitDefaultsAsWritten | daviswww.py:258-259 | the default pass over the slots as written fails exactly when some slot is a tuple |
| Registry.RecordSlotsAgree | daviswww.py:258-259 | on slots that are all records, the as-written pass gives the modelled defaults |
| Registry.WindTwoFailsAsWritten | daviswww.py:219-221 | as written, wind choice 2 makes the default pass, and so construction, fail |
| Registry.OtherWindChoicesAgree | daviswww.py:212-221 | as written, every other wind choice builds exactly the modelled defaults |
| Registry.WindTwoCorrected | daviswww.py:219-221 | with the intended entry, both 2-minute wind fields get registry ids |
| Registry.FieldRegistered | daviswww.py:255-259 | every field of the table has an id in the registry, whatever the mapping text |
| Readings.KeyingOf | daviswww.py:286-295 | record types 1 and 2 are filed under `str(txid)`, and a missing `txid` is an error that stops the payload; types 3, 4 and 6 are filed under "B", "I" and "A"; a missing record type is an error; other unknown types are skipped |
| Readings.TxidText | daviswww.py:289 | `str` of an integral txid is its canonical decimal text (digits without a leading zero, a minus sign only for negatives), which reads back as the same integer; `str(None)` is "None", which reads as no integer |
| Readings.Ingest | daviswww.py:296-297 | every key of a record is stored under (txid, key), replacing an earlier value; keys of other transmitters or fields are untouched; nothing else is added |
| Readings.ParseIntoData | daviswww.py:283-297 | filing never drops a key already in the index, and a payload is filed to the end exactly when none of its records is malformed; `UnreportedKeyKept`, `LastReportWins` and `MalformedStops` give the stored values |
| Readings.UnreportedKeyKept | daviswww.py:286-297 | a (txid, field) key that no record reports keeps its value, or stays absent |
| Readings.LastReportWins | daviswww.py:286-297 | a key holds the value from the last record that reports it |
| Readings.MalformedStops | daviswww.py:286-297 | a malformed record ends the payload: the index is what the records before it produced |
| Readings.SuiteKeyedByTxid | daviswww.py:288-289 | records of type 1 or 2 with an integer txid are filed under its decimal text, which reads back as that txid |
| Resolver.FirstReporting | daviswww.py:278-280 | finds the first transmitter in the order whose key for the field is present, or none when no key is present |
| Resolver.GetCondition | daviswww.py:273-281 | the preferred transmitter's value when its key is present; otherwise the value of the first present key in the order; otherwise null |
| Resolver.UnreportedIsNull | daviswww.py:273-281 | a field no transmitter reports resolves to null |
| Resolver.PreferredNullShadows | daviswww.py:275-276 | a null stored for the preferred transmitter is returned even when another transmitter has a number |
| Resolver.ScenarioPreferred | daviswww.py:275-276 | the preferred transmitter wins over one earlier in the order |
| Resolver.ScenarioFallback | daviswww.py:278-280 | without the preferred transmitter, the first reporting transmitter in the order wins |
| Text.Words | daviswww.py:262 | whitespace splitting yields non-empty words free of whitespace; `Text.WordsOfSpread` pins down which words |
| Text.WordsUnwords | daviswww.py:262 | splitting space-joined words gives back the words |
| Text.WordsOfSpread | daviswww.py:262 | text made of words separated by non-empty whitespace runs, with any whitespace before the first and after the last, splits into exactly those words, in order |
| Text.Split | daviswww.py:264 | splitting on a character gives at least one part, and no part contains the character |
| Text.SplitJoin | daviswww.py:264 | the parts rejoin to the text, and there is one more part than separators |
| Text.SplitAtSoleSep | daviswww.py:264 | text that contains the separator exactly once determines the parts on either side of it |
| Text.ParseIntToDecimal | daviswww.py:289 | the decimal text of an integer reads back as that integer |
| Driver.WindChoice | daviswww.py:212-221 | corrected conversion (see "## Findings"): a number is taken as it is; text is read as an integer; unreadable text keeps the default choice 1. As written, the code compares the raw value and text never matches |
| Driver.WindTableAsWritten | daviswww.py:212-221 | as written, a text value never selects a wind entry and the default table is used |
| Driver.WindTextMatchesNumber | daviswww.py:212-221 | with the corrected conversion, the text of a number selects the same wind entries as the number |
| Driver.WindTextIgnoredAsWritten | daviswww.py:212-221 | as written, "0" from a configuration file yields the 1-minute average; corrected, it yields the latest reading |
| Driver.UnreadableTextAsWritten | daviswww.py:212-221 | text that reads as no integer keeps choice 1, so the table is the one the code as written builds for any text |
| Driver.DefaultDriver | daviswww.py:212-249 | with every option left out, the driver uses the catalog as written (1-minute wind average), rain factor 0.01, a 60 second interval, order "12345678BIA", and group defaults "1" and "2" with no mapping |
| Catalog.WithSameInfo | daviswww.py:214-219 | re-assigning a metric the information it already holds leaves the catalog unchanged, so `wind_measurement` 1 keeps the table as written |
| Driver.PollInterval | daviswww.py:231-234 | the interval is kept when within 5 to 600 seconds, else replaced by 60 |
| Driver.PollIntervalIdempotent | daviswww.py:231-234 | validating an interval twice gives the same result as once |
| Driver.RegistryCoversTable | daviswww.py:255-259 | the registry built for a table has an id for every field of the table |
| Driver.MakeDriver | daviswww.py:212-250 | a constructed driver has an id for every field, a positive rain factor and a valid interval, with the table, registry and order from the configuration |
| Driver.Resolve | daviswww.py:334-336 | one reading per catalog entry, in catalog order, each the `get_condition` result for the entry's field |
| Driver.Step | daviswww.py:336-340 | a null reading leaves packet and baseline as they are; a number stores the scaled, post-processed value under the metric and hands on the post-processing's baseline |
| Driver.PostProcessed | daviswww.py:336-339 | the reading times the entry's factor; the rain rate is also scaled to inches; rain goes through the tracker; only rain tracking touches the baseline |
| Driver.Assemble | daviswww.py:334-340 | the loop only adds packet keys, never removes one |
| Driver.UnresolvedKeyKept | daviswww.py:334-340 | a key that no entry with a number carries keeps its value, or stays absent |
| Driver.ResolvedKeyPresent | daviswww.py:334-340 | every metric whose reading is a number is in the packet |
| Driver.BaselineKeptWithoutTracking | daviswww.py:334-340 | without a rain tracking entry that has a number, the baseline is unchanged |
| Driver.ResolvedValue | daviswww.py:334-340 | a non-tracking metric holds its scaled, post-processed reading from the last entry with a number that carries it |
| Driver.TrackedRainFirst | daviswww.py:334-340 | when the sole rain tracking entry comes first, its amount and new baseline survive the rest of the loop |
| Driver.TrackedRain | daviswww.py:334-340 | the sole rain tracking entry's metric holds the tracker's amount for the incoming baseline, and the loop hands back the scaled reading as baseline |
| Driver.RainOfLoop | daviswww.py:334-340 | over a packet header, a resolving rain reading yields the tracker's amount and advances the baseline; a null one omits the metric and keeps the baseline |
| Driver.UntrackedRain | daviswww.py:334-340 | when the rain tracking entry's reading is null, its metric is not added and the baseline is kept |
| Driver.Fetch | daviswww.py:310-316 | a fetched payload's timestamp becomes the packet time; a missing payload changes nothing |
| Driver.CycleData | daviswww.py:299-332 | the packet time is the weather payload's, else the air quality payload's, else the clock's |
| Driver.PollCycle | daviswww.py:299-341 | every packet carries `dateTime` and `usUnits` |
| Driver.CycleTimestamp | daviswww.py:301-341 | in the packet, `dateTime` is weather's, else air quality's, else the clock's time, and `usUnits` is the US tag |
| Driver.UnreportedFieldAbsent | daviswww.py:283-297 | a field absent from every payload has no key in the index under any transmitter |
| Driver.MissingFieldOmitted | daviswww.py:334-340 | a metric whose field no payload reports is left out of the packet, not set to 0 |
| Driver.CycleKeys | daviswww.py:334-340 | besides the time and unit keys, a metric is in the packet exactly when some entry carrying it resolves to a number |
| Driver.CycleValue | daviswww.py:336-340 | a resolving metric other than the tracked rain total holds reading times factor, and the rain rate is also scaled to inches |
| Driver.CycleRain | daviswww.py:334-340 | a resolving rain reading yields the tracker's amount and advances the baseline; a null one omits the metric and keeps the baseline |
| Driver.MadeDriverShape | daviswww.py:179-221 | every constructed driver has unique metric names, `rain` (monthly rainfall, factor 1) as sole tracking entry, and no metric named like the time or unit keys |
| Driver.TableShape | daviswww.py:179-221 | for every wind choice the catalog has unique metric names, `rain` as its sole tracking entry, and no metric named like the time or unit keys |

## Left out

- HTTP fetching, timeouts, `raise_for_status`, JSON decoding, logging, `time.time()` and `time.sleep` are left out. The clock reading and the decoded payloads (`Option<Payload>`, None for an unconfigured or failed endpoint) are parameters of `Driver.PollCycle`.
- The endless generator loop is left out. One cycle is modelled, and the rain baseline is threaded between cycles by the caller.
- The reading of `weather_url`/`aqi_url` before they are assigned (daviswww.py:229) is left out. The model assumes the hosts are configured as the caller decides.
- Floating point: readings, factors and the millimetre constant are exact reals. IEEE rounding is not modelled.
- JSON values are null or numbers. Strings, booleans and nested objects stored in the index are not modelled, because the catalog reads only numeric fields.
- Readings.KeyingOf: an integral JSON float txid (`"txid": 3.0`) is filed under "3", but Python's `str` gives "3.0". JSON values are not split into integers and floats. An unknown record type is skipped. The code instead files it under the transmitter id of the previous record, or fails when it is the first record. A txid that is not an integral number is treated as malformed; the code would file it under Python's text of the float.
- Readings.ParseIntoData: a missing `data_structure_type` or `txid` stops the payload and keeps the records filed before it. This mirrors the KeyError that the cycle's exception handler catches. A payload without `ts` is not modelled, since `Payload` always carries a timestamp.
- Text.Words: whitespace is space, tab, newline, carriage return, vertical tab and form feed. Python's `str.split()` also splits on the ASCII separators \x1c, \x1d, \x1e and \x1f and on other Unicode whitespace.
- Text.ParseInt: reads an optional minus and decimal digits. Python's `int()` also accepts surrounding whitespace, a plus sign and underscores.
- Driver.WindChoice: models the corrected conversion, not lines 212-221 as written (those compare the raw value with 0, 1 and 2; see `Driver.WindTableAsWritten`). A configuration value is an integer or text. Booleans and floats, which Python compares equal to 0, 1 or 2, are not modelled. Text that reads as no integer keeps choice 1 (`Driver.UnreadableTextAsWritten`). That matches the code as written, where any text keeps the 1-minute entries, but not the `int()` conversion proposed under "## Findings", which would raise ValueError and stop construction. The model keeps the as-written table there rather than modelling the failure.
- Driver.MakeDriver: the table is built with the corrected `wind_measurement` conversion (`Driver.WindChoice`), not with the code as written (`Driver.WindTableAsWritten`), so a text value selects wind entries here but not in the code. `rain_collector` is taken as an already converted integer: the `int()` at line 238, with its ValueError on non-numeric text and its truncation of a float (2.7 becomes 2), is not modelled. `poll_interval` is taken as an already converted real. `float()` of its text is not modelled, and neither are the hardware name and host settings.
- The `default_stanza` text, the `loader` function and the `__main__` demo are configuration glue and are left out.

## Findings

| source | as written | input that shows it | evidently intended | confidence | as-written member | corrected member |
|---|---|---|---|---|---|---|
| daviswww.py:220 | the 2-minute `windSpeed` assignment ends in a comma, so the entry is a one-element tuple and `init_txids` fails reading its field | `wind_measurement` given as the integer 2 in code (from a configuration file the value is the text "2", which by the next row never reaches line 220, so that row hides this one) | the entry is the `SensorInfo` for `wind_speed_avg_last_2_min`, like the lines for choices 0 and 1 | high, not executed | Registry.WindTwoFailsAsWritten | Registry.WindTwoCorrected |
| daviswww.py:212-221 | `wind_measurement` is compared with the integers 0, 1 and 2 without conversion, so text from a configuration file never matches and the 1-minute average is always used | `wind_measurement = 0` in the configuration file (the value arrives as the text "0") | convert the value with `int()`, as the constructor does for `rain_collector` at line 238 | medium, not executed | Driver.WindTextIgnoredAsWritten | Driver.WindTextMatchesNumber |

=== FILE: catalog.dfy ===
/**
 The metric catalog: for every logical metric of the output record, the
 device field that carries it, its scale factor, its metric type, the
 transmitter group that supplies its default transmitter id, and the
 post-processing applied after scaling.
 */
module Catalog {
  import opened Wrappers

  /** Transmitter groups; each has one default transmitter id. */
  datatype Group = Weather | Soil | Bar | Indoor | AirQuality

  /** The closed set of post-processing steps a catalog entry may name. */
  datatype PostProcess = NoPost | ScaleRain | TrackTotalRain

  datatype SensorInfo = SensorInfo(
    wllName: string,
    factor: real,
    metricType: string,
    group: Group,
    post: PostProcess)
  {
    /** A device reading in the driver's units: multiplied by the entry's factor. */
    function Scaled(x: real): real {
      x * factor
    }
  }

  /** One catalog row: a logical metric name and its sensor information. */
  datatype Entry = Entry(metric: string, info: SensorInfo)

  type Table = seq<Entry>

  /** Row `i` of the table as the driver builds it, before looking at the wind setting. */
  function BaseRow(i: nat): Entry
    requires i < 31
  {
    match i
    case 0 => Entry("outTemp", SensorInfo("temp", 1.0, "temp", Weather, NoPost))
    case 1 => Entry("outHumidity", SensorInfo("hum", 1.0, "temp", Weather, NoPost))
    case 2 => Entry("dewpoint", SensorInfo("dew_point", 1.0, "temp", Weather, NoPost))
    case 3 => Entry("heatindex", SensorInfo("heat_index", 1.0, "temp", Weather, NoPost))
    case 4 => Entry("THSW", SensorInfo("thsw_index", 1.0, "temp", Weather, NoPost))
    case 5 => Entry("windchill", SensorInfo("wind_chill", 1.0, "wind", Weather, NoPost))
    case 6 => Entry("windSpeed", SensorInfo("wind_speed_avg_last_1_min", 1.0, "wind", Weather, NoPost))
    case 7 => Entry("windDir", SensorInfo("wind_dir_scalar_avg_last_1_min", 1.0, "wind", Weather, NoPost))
    case 8 => Entry("windGust", SensorInfo("wind_speed_hi_last_2_min", 1.0, "wind", Weather, NoPost))
    case 9 => Entry("windGustDir", SensorInfo("wind_dir_at_hi_speed_last_2_min", 1.0, "wind", Weather, NoPost))
    case 10 => Entry("rain", SensorInfo("rainfall_monthly", 1.0, "rain", Weather, TrackTotalRain))
    case 11 => Entry("rainRate", SensorInfo("rain_rate_last", 1.0, "rain", Weather, ScaleRain))
    case 12 => Entry("radiation", SensorInfo("solar_rad", 1.0, "solar", Weather, NoPost))
    case 13 => Entry("UV", SensorInfo("uv_index", 1.0, "uv", Weather, NoPost))
    case 14 => Entry("txBatteryStatus", SensorInfo("trans_battery_flag", 1.0, "battery", Weather, NoPost))
    case 15 => Entry("soilTemp1", SensorInfo("temp_1", 1.0, "soil1", Soil, NoPost))
    case 16 => Entry("soilTemp2", SensorInfo("temp_2", 1.0, "soil2", Soil, NoPost))
    case 17 => Entry("soilTemp3", SensorInfo("temp_3", 1.0, "soil3", Soil, NoPost))
    case 18 => Entry("soilTemp4", SensorInfo("temp_4", 1.0, "soil4", Soil, NoPost))
    case 19 => Entry("soilMoist1", SensorInfo("moist_soil_1", 1.0, "moist1", Soil, NoPost))
    case 20 => Entry("soilMoist2", SensorInfo("moist_soil_2", 1.0, "moist2", Soil, NoPost))
    case 21 => Entry("soilMoist3", SensorInfo("moist_soil_3", 1.0, "moist3", Soil, NoPost))
    case 22 => Entry("soilMoist4", SensorInfo("moist_soil_4", 1.0, "moist4", Soil, NoPost))
    case 23 => Entry("barometer", SensorInfo("bar_sea_level", 1.0, "bar", Bar, NoPost))
    case 24 => Entry("pressure", SensorInfo("bar_absolute", 1.0, "bar", Bar, NoPost))
    case 25 => Entry("inTemp", SensorInfo("temp_in", 1.0, "indoor", Indoor, NoPost))
    case 26 => Entry("inHumidity", SensorInfo("hum_in", 1.0, "indoor", Indoor, NoPost))
    case 27 => Entry("inDewpoint", SensorInfo("dew_point_in", 1.0, "indoor", Indoor, NoPost))
    case 28 => Entry("pm1_0", SensorInfo("pm_1", 1.0, "aqi", AirQuality, NoPost))
    case 29 => Entry("pm2_5", SensorInfo("pm_2p5", 1.0, "aqi", AirQuality, NoPost))
    case 30 => Entry("pm10_0", SensorInfo("pm_10", 1.0, "aqi", AirQuality, NoPost))
  }

  /** The table as the driver builds it, in the dictionary's insertion order. */
  function BaseTable(): (t: Table)
    ensures |t| == 31
    ensures forall i :: 0 <= i < 31 ==> t[i] == BaseRow(i)
  {
    seq(31, i requires 0 <= i < 31 => BaseRow(i))
  }

  /** Replaces the sensor information of metric `m`, keeping its position (dictionary assignment to an existing key). */
  function WithInfo(t: Table, m: string, info: SensorInfo): (r: Table)
    ensures |r| == |t|
    ensures forall i :: 0 <= i < |t| ==> r[i].metric == t[i].metric
    ensures forall i :: 0 <= i < |t| ==> r[i].info == (if t[i].metric == m then info else t[i].info)
  {
    if t == [] then []
    else [if t[0].metric == m then Entry(m, info) else t[0]] + WithInfo(t[1..], m, info)
  }

  /** Re-assigning a metric the information it already holds leaves the table as it was. */
  lemma WithSameInfo(t: Table, m: string, info: SensorInfo)
    requires forall i :: 0 <= i < |t| && t[i].metric == m ==> t[i].info == info
    ensures WithInfo(t, m, info) == t
  {
    var r := WithInfo(t, m, info);
    assert forall i :: 0 <= i < |t| ==> r[i] == t[i];
  }

  /** The wind speed and direction entries selected by a wind measurement choice (0, 1 or 2). */
  function WindInfos(choice: int): (r: (SensorInfo, SensorInfo))
    requires 0 <= choice <= 2
  {
    if choice == 0 then
      (SensorInfo("wind_speed_last", 1.0, "wind", Weather, NoPost),
       SensorInfo("wind_dir_last", 1.0, "wind", Weather, NoPost))
    else if choice == 1 then
      (SensorInfo("wind_speed_avg_last_1_min", 1.0, "wind", Weather, NoPost),
       SensorInfo("wind_dir_scalar_avg_last_1_min", 1.0, "wind", Weather, NoPost))
    else
      (SensorInfo("wind_speed_avg_last_2_min", 1.0, "wind", Weather, NoPost),
       SensorInfo("wind_dir_scalar_avg_last_2_min", 1.0, "wind", Weather, NoPost))
  }

  lemma BaseWindRow(i: nat)
    requires i < 31
    ensures BaseRow(i).metric == "windSpeed" <==> i == 6
    ensures BaseRow(i).metric == "windDir" <==> i == 7
  {
  }

  /** windSpeed and windDir are rows 6 and 7 of the table and occur nowhere else. */
  lemma BaseWindRows()
    ensures forall i :: 0 <= i < 31 ==> (BaseRow(i).metric == "windSpeed" <==> i == 6)
    ensures forall i :: 0 <= i < 31 ==> (BaseRow(i).metric == "windDir" <==> i == 7)
  {
    forall i | 0 <= i < 31
      ensures BaseRow(i).metric == "windSpeed" <==> i == 6
      ensures BaseRow(i).metric == "windDir" <==> i == 7
    {
      BaseWindRow(i);
    }
  }

  /**
   The catalog after the wind choice: for 0, 1 or 2 the windSpeed and windDir
   entries (rows 6 and 7) are re-chosen in place; any other choice keeps the
   base table.
   */
  function SensorTable(choice: int): (t: Table)
    ensures |t| == |BaseTable()|
    ensures forall i :: 0 <= i < |t| ==> t[i].metric == BaseTable()[i].metric
    ensures forall i :: 0 <= i < |t| && i != 6 && i != 7 ==> t[i] == BaseTable()[i]
    ensures 0 <= choice <= 2 ==> t[6].info == WindInfos(choice).0 && t[7].info == WindInfos(choice).1
    ensures !(0 <= choice <= 2) ==> t == BaseTable()
  {
    BaseWindRows();
    if 0 <= choice <= 2 then
      var (speed, dir) := WindInfos(choice);
      WithInfo(WithInfo(BaseTable(), "windSpeed", speed), "windDir", dir)
    else BaseTable()
  }

  /** Index of the last entry named `m`: the entry a dictionary lookup of `m` finds. */
  function LastIndexOf(t: Table, m: string): (r: Option<nat>)
    ensures r.Some? ==> r.value < |t| && t[r.value].metric == m
    ensures r.Some? ==> forall j :: r.value < j < |t| ==> t[j].metric != m
    ensures r.None? ==> forall j :: 0 <= j < |t| ==> t[j].metric != m
  {
    if t == [] then None
    else if t[|t| - 1].metric == m then Some(|t| - 1)
    else LastIndexOf(t[..|t| - 1], m)
  }

  /** Dictionary lookup of a metric name. */
  function Lookup(t: Table, m: string): (r: Option<SensorInfo>)
    ensures r.Some? <==> exists i :: 0 <= i < |t| && t[i].metric == m
    ensures r.Some? ==> exists i :: 0 <= i < |t| && t[i] == Entry(m, r.value) &&
                                    forall j :: i < j < |t| ==> t[j].metric != m
  {
    match LastIndexOf(t, m)
    case None => None
    case Some(i) => Some(t[i].info)
  }

  /** In a table without repeated metric names, looking up an entry's metric finds that entry. */
  lemma LookupUnique(t: Table, i: nat)
    requires UniqueMetrics(t) && i < |t|
    ensures Lookup(t, t[i].metric) == Some(t[i].info)
  {
    var r := Lookup(t, t[i].metric);
    var j :| 0 <= j < |t| && t[j] == Entry(t[i].metric, r.value) && forall k :: j < k < |t| ==> t[k].metric != t[i].metric;
    assert i == j;
  }

  lemma BaseOnlyRainTracksTotal(i: nat)
    requires i < 31
    ensures BaseRow(i).info.post == TrackTotalRain <==> i == 10
  {
  }

  /** Every metric name occurs at most once, as in a dictionary. */
  predicate UniqueMetrics(t: Table) {
    forall i, j :: 0 <= i < j < |t| ==> t[i].metric != t[j].metric
  }

  /** Every device field name occurs at most once. */
  predicate UniqueFields(t: Table) {
    forall i, j :: 0 <= i < j < |t| ==> t[i].info.wllName != t[j].info.wllName
  }

  lemma BaseRowMetricDistinct(i: nat)
    requires i < 31
    ensures forall j :: i < j < 31 ==> BaseRow(i).metric != BaseRow(j).metric
  {
  }

  lemma BaseMetricsUnique()
    ensures UniqueMetrics(BaseTable())
  {
    var t := BaseTable();
    forall i, j | 0 <= i < j < |t| ensures t[i].metric != t[j].metric {
      BaseRowMetricDistinct(i);
    }
  }

  lemma BaseRowFieldDistinct(i: nat)
    requires i < 31
    ensures forall j :: i < j < 31 ==> BaseRow(i).info.wllName != BaseRow(j).info.wllName
  {
  }

  lemma BaseFieldsUnique()
    ensures UniqueFields(BaseTable())
  {
    var t := BaseTable();
    forall i, j | 0 <= i < j < |t| ensures t[i].info.wllName != t[j].info.wllName {
      BaseRowFieldDistinct(i);
    }
  }

  /** Every metric name of the table differs from `m`. */
  predicate FreeOf(t: Table, m: string) {
    forall i :: 0 <= i < |t| ==> t[i].metric != m
  }

  lemma BaseRowNotHostKey(i: nat)
    requires i < 31
    ensures BaseRow(i).metric != "dateTime" && BaseRow(i).metric != "usUnits"
  {
  }

  /** No metric of any table collides with the two keys every packet starts with. */
  lemma TableFreeOfHostKeys(choice: int)
    ensures FreeOf(SensorTable(choice), "dateTime") && FreeOf(SensorTable(choice), "usUnits")
  {
    forall i | 0 <= i < 31 ensures SensorTable(choice)[i].metric != "dateTime" && SensorTable(choice)[i].metric != "usUnits" {
      BaseRowNotHostKey(i);
    }
  }

  /** Re-choosing the wind entries never changes the metric names, so they stay distinct. */
  lemma TableMetricsUnique(choice: int)
    ensures UniqueMetrics(SensorTable(choice))
  {
    BaseMetricsUnique();
  }

  lemma WindFieldsFresh(choice: int, j: nat)
    requires 0 <= choice <= 2
    requires j < 31 && j != 6 && j != 7
    ensures BaseRow(j).info.wllName != WindInfos(choice).0.wllName
    ensures BaseRow(j).info.wllName != WindInfos(choice).1.wllName
  {
  }

  /** Whatever the wind choice, no two entries share a device field. */
  lemma TableFieldsUnique(choice: int)
    ensures UniqueFields(SensorTable(choice))
  {
    BaseFieldsUnique();
    var t := SensorTable(choice);
    if 0 <= choice <= 2 {
      assert WindInfos(choice).0.wllName != WindInfos(choice).1.wllName;
      forall i, j | 0 <= i < j < |t| ensures t[i].info.wllName != t[j].info.wllName {
        if i != 6 && i != 7 && j != 6 && j != 7 {
          assert t[i] == BaseTable()[i] && t[j] == BaseTable()[j];
        } else if i == 6 || i == 7 {
          if j != 7 {
            WindFieldsFresh(choice, j);
          }
        } else {
          WindFieldsFresh(choice, i);
        }
      }
    }
  }

  lemma WindInfosNoPost(choice: int)
    requires 0 <= choice <= 2
    ensures WindInfos(choice).0.post == NoPost && WindInfos(choice).1.post == NoPost
  {
  }

  lemma TableRowTracksTotal(choice: int, i: nat)
    requires i < 31
    ensures SensorTable(choice)[i].info.post == TrackTotalRain <==> i == 10
  {
    var t := SensorTable(choice);
    if (i == 6 || i == 7) && 0 <= choice <= 2 {
      WindInfosNoPost(choice);
    } else {
      BaseOnlyRainTracksTotal(i);
      assert t[i] == BaseRow(i);
    }
  }

  /** Rain is the only metric whose post-processing carries state across cycles. */
  lemma OnlyRainTracksTotal(choice: int)
    ensures forall i :: 0 <= i < |SensorTable(choice)| ==>
      (SensorTable(choice)[i].info.post == TrackTotalRain <==> i == 10)
  {
    var t := SensorTable(choice);
    forall i | 0 <= i < |t| ensures t[i].info.post == TrackTotalRain <==> i == 10 {
      TableRowTracksTotal(choice, i);
    }
  }

  lemma BaseRainRow()
    ensures BaseRow(10) == Entry("rain", SensorInfo("rainfall_monthly", 1.0, "rain", Weather, TrackTotalRain))
  {
  }

  /** Row 10 of every table is the rain entry. */
  lemma RainRow(choice: int)
    ensures SensorTable(choice)[10] == Entry("rain", SensorInfo("rainfall_monthly", 1.0, "rain", Weather, TrackTotalRain))
  {
    var t := SensorTable(choice);
    assert t[10] == BaseTable()[10];
    assert BaseTable()[10] == BaseRow(10);
    BaseRainRow();
  }

  /**
   A catalog slot as the constructor actually stores it: either sensor
   information, or a one-element tuple holding it (what a trailing comma
   after the call produces).
   */
  datatype Slot = Record(info: SensorInfo) | OneTuple(item: SensorInfo)

  /** The windSpeed slot exactly as the constructor assigns it, trailing comma included. */
  function WindSpeedSlotAsWritten(choice: int): (s: Slot)
    ensures s.OneTuple? <==> choice == 2
    ensures 0 <= choice <= 1 ==> s == Record(WindInfos(choice).0)
    ensures s.Record? && !(0 <= choice <= 1) ==> s.info == BaseTable()[6].info
  {
    if choice == 2 then OneTuple(WindInfos(2).0)
    else if 0 <= choice <= 1 then Record(WindInfos(choice).0)
    else Record(BaseTable()[6].info)
  }

  /** The slots of table `t` with the windSpeed slot (row 6) given separately. */
  function Slots(t: Table, windSpeed: Slot): (r: seq<Slot>)
    requires |t| > 6
    ensures |r| == |t|
    ensures forall i :: 0 <= i < |r| && i != 6 ==> r[i] == Record(t[i].info)
    ensures r[6] == windSpeed
  {
    seq(|t|, i requires 0 <= i < |t| => if i == 6 then windSpeed else Record(t[i].info))
  }

  /** The catalog slots as written: every entry is a record except a tuple-wrapped windSpeed for choice 2. */
  function SlotsAsWritten(choice: int): (r: seq<Slot>)
    ensures |r| == |SensorTable(choice)|
    ensures forall i :: 0 <= i < |r| && i != 6 ==> r[i] == Record(SensorTable(choice)[i].info)
    ensures r[6] == WindSpeedSlotAsWritten(choice)
  {
    var t := SensorTable(choice);
    assert |t| == 31;
    Slots(t, WindSpeedSlotAsWritten(choice))
  }
}

=== FILE: driver.dfy ===
/**
 The driver: configuration handling at construction, and one poll cycle,
 which files the fetched payloads into a reading index, resolves every
 catalog metric, scales and post-processes it, and assembles the packet.
 The rain baseline is passed in and handed back instead of living in the
 driver object.
 */
module Driver {
  import opened Wrappers
  import opened Text
  import opened Catalog
  import opened Rain
  import opened Registry
  import opened Readings
  import opened Resolver

  /** A configuration value: a number when given in code, text when read from a configuration file. */
  datatype ConfigValue = IntValue(n: int) | TextValue(text: string)

  /** The options the driver reads; the hosts only decide which payloads a cycle receives. */
  datatype Config = Config(
    windMeasurement: ConfigValue,
    pollInterval: real,
    rainCollector: int,
    transmittersOrdered: string,
    weatherTxid: string,
    soilTxid: string,
    mappings: string)

  /**
   The value of every option left out of the configuration. Empty mapping
   text stands for the missing `mappings` option, which applies no token.
   */
  function DefaultConfig(): Config {
    Config(IntValue(1), 60.0, 1, "12345678BIA", "1", "2", "")
  }

  /**
   With every option left out, the driver uses the catalog as written (the
   1-minute wind average), the 0.01 inch collector, a 60 second interval, the
   stock transmitter order, and group defaults "1" and "2" with no mapping.
   */
  lemma DefaultDriver(cfg: Config)
    requires cfg == DefaultConfig()  // the one value this lemma is about; a parameter rather than a literal keeps the solver from unfolding it
    ensures var d := MakeDriver(cfg);
            && d.table == BaseTable()
            && d.rainFactor == 0.01 && d.pollInterval == 60.0
            && d.order == "12345678BIA"
            && d.txids == InitDefaults(BaseTable(), "1", "2")
  {
    DefaultWindTable(WindChoice(cfg.windMeasurement));
    assert Words(cfg.mappings) == [];
  }

  /** Choice 1 re-assigns the wind entries the catalog already holds. */
  lemma DefaultWindTable(choice: int)
    requires choice == 1  // the one value this lemma is about; a parameter rather than a literal keeps the solver from unfolding it
    ensures SensorTable(choice) == BaseTable()
  {
    var b := BaseTable();
    BaseWindInfos(choice, b[6], b[7]);
    WindRowsOf(b);
    SameWindKept(b, WindInfos(choice).0, WindInfos(choice).1);
  }

  lemma WindRowsOf(b: Table)
    requires b == BaseTable()
    ensures |b| > 7
    ensures forall i :: 0 <= i < |b| ==> (b[i].metric == "windSpeed" <==> i == 6) && (b[i].metric == "windDir" <==> i == 7)
  {
    BaseWindRows();
  }

  lemma SameWindKept(t: Table, speed: SensorInfo, dir: SensorInfo)
    requires |t| > 7
    requires forall i :: 0 <= i < |t| ==> (t[i].metric == "windSpeed" <==> i == 6) && (t[i].metric == "windDir" <==> i == 7)
    requires t[6].info == speed && t[7].info == dir
    ensures WithInfo(WithInfo(t, "windSpeed", speed), "windDir", dir) == t
  {
    WithSameInfo(t, "windSpeed", speed);
    WithSameInfo(t, "windDir", dir);
  }

  lemma BaseWindInfos(choice: int, speed: Entry, dir: Entry)
    requires choice == 1  // the one value this lemma is about; a parameter rather than a literal keeps the solver from unfolding it
    requires speed == BaseTable()[6] && dir == BaseTable()[7]
    ensures speed.info == WindInfos(choice).0 && dir.info == WindInfos(choice).1
  {
    assert speed == BaseRow(6) && dir == BaseRow(7);
  }

  /**
   The catalog as the constructor builds it: only the numbers 0, 1 and 2
   re-choose the wind entries, and text is never converted. The number 2
   gets the intended 2-minute entry here; as written, that entry is a
   one-element tuple and construction fails (`Registry.WindTwoFailsAsWritten`).
   */
  function WindTableAsWritten(v: ConfigValue): (t: Table)
    ensures v.TextValue? ==> t == BaseTable()
  {
    match v
    case IntValue(n) => SensorTable(n)
    case TextValue(_) => BaseTable()
  }

  /**
   The wind choice a value denotes under the corrected reading: text is
   converted as integer conversion would, and unreadable text keeps the
   default 1. The code as written does not convert (`WindTableAsWritten`).
   */
  function WindChoice(v: ConfigValue): (c: int)
    ensures v.IntValue? ==> c == v.n
    ensures v.TextValue? && ParseInt(v.text).Some? ==> c == ParseInt(v.text).value
    ensures v.TextValue? && ParseInt(v.text).None? ==> c == 1
  {
    match v
    case IntValue(n) => n
    case TextValue(s) => ParseInt(s).GetOr(1)
  }

  /** Text from a configuration file selects the same wind entries as the number it spells. */
  lemma WindTextMatchesNumber(n: int)
    ensures WindChoice(TextValue(IntToDecimal(n))) == WindChoice(IntValue(n))
    ensures SensorTable(WindChoice(TextValue(IntToDecimal(n)))) == SensorTable(n)
  {
    ParseIntToDecimal(n);
  }

  /** As written, "0" read from a configuration file still gives the 1-minute average, not the latest reading. */
  lemma WindTextIgnoredAsWritten(text: string)
    requires text == "0"  // the one value this lemma is about; a parameter rather than a literal keeps the solver from unfolding it
    ensures WindTableAsWritten(TextValue(text))[6].info.wllName == "wind_speed_avg_last_1_min"
    ensures SensorTable(WindChoice(TextValue(text)))[6].info.wllName == "wind_speed_last"
  {
    ParseIntToDecimal(0);
    assert IntToDecimal(0) == text;
    assert WindChoice(TextValue(text)) == 0;
    assert BaseTable()[6] == BaseRow(6);
  }

  /**
   Text that reads as no integer keeps choice 1, which gives the same table
   as the code as written does for any text.
   */
  lemma UnreadableTextAsWritten(text: string)
    requires ParseInt(text).None?
    ensures WindChoice(TextValue(text)) == 1
    ensures SensorTable(WindChoice(TextValue(text))) == WindTableAsWritten(TextValue(text))
  {
    DefaultWindTable(WindChoice(TextValue(text)));
  }

  /** The poll interval in seconds, replaced by 60 when outside 5 to 600. */
  function PollInterval(p: real): (r: real)
    ensures 5.0 <= r <= 600.0
    ensures 5.0 <= p <= 600.0 ==> r == p
    ensures !(5.0 <= p <= 600.0) ==> r == 60.0
  {
    if 5.0 <= p <= 600.0 then p else 60.0
  }

  /** Validating twice changes nothing more. */
  lemma PollIntervalIdempotent(p: real)
    ensures PollInterval(PollInterval(p)) == PollInterval(p)
  {
  }

  /** The driver's settings after construction. */
  datatype Driver = Driver(
    table: Table,
    txids: Assignment,
    order: string,
    rainFactor: real,
    pollInterval: real)

  /** Every entry's field has a preferred transmitter. */
  predicate Assigned(table: Table, txids: Assignment) {
    forall i :: 0 <= i < |table| ==> table[i].info.wllName in txids
  }

  /** Every field has a preferred transmitter, and the rain factor and poll interval are usable. */
  predicate Valid(d: Driver) {
    Assigned(d.table, d.txids) && d.rainFactor > 0.0 && 5.0 <= d.pollInterval <= 600.0
  }

  /** The registry built for a table has an id for every field of the table. */
  lemma RegistryCoversTable(t: Table, weatherId: string, soilId: string, mappings: string)
    ensures Assigned(t, InitTxids(t, weatherId, soilId, mappings))
  {
    forall i | 0 <= i < |t| ensures t[i].info.wllName in Fields(t) {
    }
  }

  /** Construction: wind choice, interval and collector checks, and the transmitter registry. */
  function MakeDriver(cfg: Config): (d: Driver)
    ensures Valid(d)
    ensures d.table == SensorTable(WindChoice(cfg.windMeasurement))
    ensures d.txids == InitTxids(d.table, cfg.weatherTxid, cfg.soilTxid, cfg.mappings)
    ensures Some(d.rainFactor) == RainScaleFactor(ValidCollector(cfg.rainCollector))
    ensures d.order == cfg.transmittersOrdered
    ensures d.pollInterval == PollInterval(cfg.pollInterval)
  {
    var table := SensorTable(WindChoice(cfg.windMeasurement));
    ValidCollectorHasFactor(cfg.rainCollector);
    RegistryCoversTable(table, cfg.weatherTxid, cfg.soilTxid, cfg.mappings);
    Driver(table, InitTxids(table, cfg.weatherTxid, cfg.soilTxid, cfg.mappings), cfg.transmittersOrdered,
           RainScaleFactor(ValidCollector(cfg.rainCollector)).value,
           PollInterval(cfg.pollInterval))
  }

  /** The output packet: metric name to value. */
  type Packet = map<string, real>

  /** The unit system tag every packet carries (US customary units). */
  const UsUnits: real := 1.0

  /** The reading of every catalog entry's field in this cycle's index, in catalog order. */
  function Resolve(d: Driver, data: Index): (vals: seq<Value>)
    requires Assigned(d.table, d.txids)
    ensures |vals| == |d.table|
    ensures forall i :: 0 <= i < |d.table| ==>
      vals[i] == GetCondition(data, d.txids, d.order, d.table[i].info.wllName)
  {
    seq(|d.table|, i requires 0 <= i < |d.table| => GetCondition(data, d.txids, d.order, d.table[i].info.wllName))
  }

  /** The value stored for reading `x`: scaled by the entry's factor, then post-processed. */
  function PostProcessed(info: SensorInfo, rainFactor: real, state: RainState, x: real): (r: (real, RainState))
    ensures info.post != TrackTotalRain ==> r.1 == state
    ensures info.post == NoPost ==> r.0 == info.Scaled(x)
    ensures info.post == ScaleRain ==> r.0 == Rain.ScaleRain(rainFactor, info.Scaled(x))
    ensures info.post == TrackTotalRain ==> r == Rain.TrackTotalRain(state, rainFactor, info.Scaled(x))
  {
    var scaled := info.Scaled(x);
    match info.post
    case NoPost => (scaled, state)
    case ScaleRain => (Rain.ScaleRain(rainFactor, scaled), state)
    case TrackTotalRain => Rain.TrackTotalRain(state, rainFactor, scaled)
  }

  /** One metric: stored when its reading is a number, left out when it is null. */
  function Step(e: Entry, v: Value, rainFactor: real, pkt: Packet, state: RainState): (r: (Packet, RainState))
    ensures v.Null? ==> r == (pkt, state)
    ensures v.Num? ==> r.0 == pkt[e.metric := PostProcessed(e.info, rainFactor, state, v.x).0]
    ensures v.Num? ==> r.1 == PostProcessed(e.info, rainFactor, state, v.x).1
  {
    match v
    case Null => (pkt, state)
    case Num(x) =>
      var (value, next) := PostProcessed(e.info, rainFactor, state, x);
      (pkt[e.metric := value], next)
  }

  /** The metrics of `entries`, in order, with their readings `vals`, added to the packet, threading the rain baseline. */
  function Assemble(entries: Table, vals: seq<Value>, rainFactor: real, pkt: Packet, state: RainState): (r: (Packet, RainState))
    requires |vals| == |entries|
    ensures pkt.Keys <= r.0.Keys
    decreases |entries|
  {
    if entries == [] then (pkt, state)
    else
      var (p, s) := Step(entries[0], vals[0], rainFactor, pkt, state);
      Assemble(entries[1..], vals[1..], rainFactor, p, s)
  }

  /** Entry `i` has a number this cycle. */
  predicate Resolves(vals: seq<Value>, i: int) {
    0 <= i < |vals| && vals[i].Num?
  }

  /** A metric name that no entry with a number carries keeps its packet value, or stays absent. */
  lemma {:induction false} UnresolvedKeyKept(entries: Table, vals: seq<Value>, rainFactor: real, pkt: Packet, state: RainState, m: string)
    requires |vals| == |entries|
    requires forall i :: Resolves(vals, i) ==> entries[i].metric != m
    ensures m in Assemble(entries, vals, rainFactor, pkt, state).0 <==> m in pkt
    ensures m in pkt ==> Assemble(entries, vals, rainFactor, pkt, state).0[m] == pkt[m]
    decreases |entries|
  {
    if entries != [] {
      var (p, s) := Step(entries[0], vals[0], rainFactor, pkt, state);
      assert Resolves(vals, 0) ==> entries[0].metric != m;
      forall i | Resolves(vals[1..], i) ensures entries[1..][i].metric != m {
        assert Resolves(vals, i + 1);
      }
      UnresolvedKeyKept(entries[1..], vals[1..], rainFactor, p, s, m);
    }
  }

  /** Every metric whose reading is a number ends up in the packet. */
  lemma {:induction false} ResolvedKeyPresent(entries: Table, vals: seq<Value>, rainFactor: real, pkt: Packet, state: RainState, k: nat)
    requires |vals| == |entries|
    requires Resolves(vals, k)
    ensures entries[k].metric in Assemble(entries, vals, rainFactor, pkt, state).0
    decreases |entries|
  {
    var (p, s) := Step(entries[0], vals[0], rainFactor, pkt, state);
    if k > 0 {
      assert entries[1..][k - 1] == entries[k] && vals[1..][k - 1] == vals[k];
      ResolvedKeyPresent(entries[1..], vals[1..], rainFactor, p, s, k - 1);
    }
  }

  /** Post-processing other than rain tracking does not touch the baseline. */
  lemma {:induction false} BaselineKeptWithoutTracking(entries: Table, vals: seq<Value>, rainFactor: real, pkt: Packet, state: RainState)
    requires |vals| == |entries|
    requires forall i :: Resolves(vals, i) ==> entries[i].info.post != TrackTotalRain
    ensures Assemble(entries, vals, rainFactor, pkt, state).1 == state
    decreases |entries|
  {
    if entries != [] {
      var (p, s) := Step(entries[0], vals[0], rainFactor, pkt, state);
      assert Resolves(vals, 0) ==> entries[0].info.post != TrackTotalRain;
      forall i | Resolves(vals[1..], i) ensures entries[1..][i].info.post != TrackTotalRain {
        assert Resolves(vals, i + 1);
      }
      BaselineKeptWithoutTracking(entries[1..], vals[1..], rainFactor, p, s);
    }
  }

  /**
   A metric without rain tracking holds its scaled, post-processed reading
   from the last entry with a number that carries it.
   */
  lemma {:induction false} ResolvedValue(entries: Table, vals: seq<Value>, rainFactor: real, pkt: Packet, state: RainState, k: nat)
    requires |vals| == |entries|
    requires Resolves(vals, k)
    requires entries[k].info.post != TrackTotalRain
    requires forall j :: k < j < |entries| && Resolves(vals, j) ==> entries[j].metric != entries[k].metric
    ensures entries[k].metric in Assemble(entries, vals, rainFactor, pkt, state).0
    ensures Assemble(entries, vals, rainFactor, pkt, state).0[entries[k].metric] ==
      PostProcessed(entries[k].info, rainFactor, state, vals[k].x).0
    decreases |entries|
  {
    var (p, s) := Step(entries[0], vals[0], rainFactor, pkt, state);
    if k == 0 {
      forall i | Resolves(vals[1..], i) ensures entries[1..][i].metric != entries[0].metric {
        assert Resolves(vals, i + 1);
      }
      UnresolvedKeyKept(entries[1..], vals[1..], rainFactor, p, s, entries[0].metric);
    } else {
      assert entries[1..][k - 1] == entries[k] && vals[1..][k - 1] == vals[k];
      forall j | k - 1 < j < |entries| - 1 && Resolves(vals[1..], j) ensures entries[1..][j].metric != entries[k].metric {
        assert Resolves(vals, j + 1);
      }
      ResolvedValue(entries[1..], vals[1..], rainFactor, p, s, k - 1);
    }
  }

  /** Entry `k` is the only one with rain tracking and its metric is carried by no other entry. */
  predicate SoleRainEntry(entries: Table, k: nat) {
    && k < |entries|
    && (forall i :: 0 <= i < |entries| ==> (entries[i].info.post == TrackTotalRain <==> i == k))
    && (forall j :: 0 <= j < |entries| && j != k ==> entries[j].metric != entries[k].metric)
  }

  lemma SoleRainEntryTail(entries: Table, k: nat)
    requires SoleRainEntry(entries, k) && k > 0
    ensures SoleRainEntry(entries[1..], k - 1)
  {
    var rest := entries[1..];
    assert rest[k - 1] == entries[k];
    forall i | 0 <= i < |rest| ensures rest[i].info.post == TrackTotalRain <==> i == k - 1 {
      assert rest[i] == entries[i + 1];
    }
  }

  /** The rain tracking entry first: its delta stays in the packet and its baseline survives the rest. */
  lemma TrackedRainFirst(entries: Table, vals: seq<Value>, rainFactor: real, pkt: Packet, state: RainState)
    requires |vals| == |entries|
    requires SoleRainEntry(entries, 0) && vals[0].Num?
    ensures entries[0].metric in Assemble(entries, vals, rainFactor, pkt, state).0
    ensures Assemble(entries, vals, rainFactor, pkt, state).0[entries[0].metric] ==
      PostProcessed(entries[0].info, rainFactor, state, vals[0].x).0
    ensures Assemble(entries, vals, rainFactor, pkt, state).1 ==
      PostProcessed(entries[0].info, rainFactor, state, vals[0].x).1
  {
    var (p, s) := Step(entries[0], vals[0], rainFactor, pkt, state);
    var rest := entries[1..];
    forall i | Resolves(vals[1..], i) ensures rest[i].metric != entries[0].metric && rest[i].info.post != TrackTotalRain {
      assert rest[i] == entries[i + 1];
    }
    UnresolvedKeyKept(rest, vals[1..], rainFactor, p, s, entries[0].metric);
    BaselineKeptWithoutTracking(rest, vals[1..], rainFactor, p, s);
  }

  /**
   When entry `k` is the only one with rain tracking and has a number, its
   metric holds the tracker's delta for the incoming baseline, and the
   baseline handed back is the scaled reading.
   */
  lemma {:induction false} TrackedRain(entries: Table, vals: seq<Value>, rainFactor: real, pkt: Packet, state: RainState, k: nat)
    requires |vals| == |entries|
    requires SoleRainEntry(entries, k) && vals[k].Num?
    ensures entries[k].metric in Assemble(entries, vals, rainFactor, pkt, state).0
    ensures Assemble(entries, vals, rainFactor, pkt, state).0[entries[k].metric] ==
      PostProcessed(entries[k].info, rainFactor, state, vals[k].x).0
    ensures Assemble(entries, vals, rainFactor, pkt, state).1 ==
      PostProcessed(entries[k].info, rainFactor, state, vals[k].x).1
    decreases |entries|
  {
    if k == 0 {
      TrackedRainFirst(entries, vals, rainFactor, pkt, state);
    } else {
      var step := Step(entries[0], vals[0], rainFactor, pkt, state);
      assert entries[0].info.post != TrackTotalRain;
      assert step.1 == state;
      assert Assemble(entries, vals, rainFactor, pkt, state) == Assemble(entries[1..], vals[1..], rainFactor, step.0, state);
      assert entries[1..][k - 1] == entries[k] && vals[1..][k - 1] == vals[k];
      SoleRainEntryTail(entries, k);
      TrackedRain(entries[1..], vals[1..], rainFactor, step.0, state, k - 1);
    }
  }

  /** Without a number for the rain tracking entry, "rain" is absent and the baseline is kept. */
  lemma UntrackedRain(entries: Table, vals: seq<Value>, rainFactor: real, pkt: Packet, state: RainState, k: nat)
    requires |vals| == |entries|
    requires SoleRainEntry(entries, k) && vals[k].Null?
    ensures entries[k].metric in Assemble(entries, vals, rainFactor, pkt, state).0 <==> entries[k].metric in pkt
    ensures Assemble(entries, vals, rainFactor, pkt, state).1 == state
  {
    BaselineKeptWithoutTracking(entries, vals, rainFactor, pkt, state);
    UnresolvedKeyKept(entries, vals, rainFactor, pkt, state, entries[k].metric);
  }

  /** One payload as fetched: its timestamp and its `conditions` array. */
  datatype Payload = Payload(ts: real, conditions: seq<Condition>)

  /**
   Takes one endpoint's payload into the cycle: its timestamp replaces the
   packet time and its conditions are filed. None stands for an endpoint that
   is not configured or whose fetch failed.
   */
  function Fetch(payload: Option<Payload>, data: Index, stamp: real): (r: (Index, real))
    ensures payload.None? ==> r == (data, stamp)
    ensures payload.Some? ==> r.1 == payload.value.ts
  {
    match payload
    case None => (data, stamp)
    case Some(p) => (ParseIntoData(p.conditions, data).0, p.ts)
  }

  /** The reading index and timestamp of a cycle: air quality first, then weather. */
  function CycleData(now: real, aqi: Option<Payload>, weather: Option<Payload>): (r: (Index, real))
    ensures weather.Some? ==> r.1 == weather.value.ts
    ensures weather.None? && aqi.Some? ==> r.1 == aqi.value.ts
    ensures weather.None? && aqi.None? ==> r.1 == now
  {
    var (data, stamp) := Fetch(aqi, map[], now);
    Fetch(weather, data, stamp)
  }

  /** The packet a cycle starts from: its time and the unit tag. */
  function Header(stamp: real): Packet {
    map["dateTime" := stamp, "usUnits" := UsUnits]
  }

  /** One poll cycle: the packet it yields and the rain baseline for the next cycle. */
  function PollCycle(d: Driver, now: real, aqi: Option<Payload>, weather: Option<Payload>, state: RainState): (r: (Packet, RainState))
    requires Valid(d)
    ensures "dateTime" in r.0 && "usUnits" in r.0
  {
    var (data, stamp) := CycleData(now, aqi, weather);
    Assemble(d.table, Resolve(d, data), d.rainFactor, Header(stamp), state)
  }

  /** The cycle as the loop over the catalog, from the header of the fetched payloads. */
  lemma PollCycleLoop(d: Driver, now: real, aqi: Option<Payload>, weather: Option<Payload>, state: RainState)
    requires Valid(d)
    ensures PollCycle(d, now, aqi, weather, state) ==
      Assemble(d.table, Resolve(d, CycleData(now, aqi, weather).0), d.rainFactor, Header(CycleData(now, aqi, weather).1), state)
  {
  }

  /** The packet time is the weather payload's, else the air quality payload's, else the clock's; the unit tag is fixed. */
  lemma CycleTimestamp(d: Driver, now: real, aqi: Option<Payload>, weather: Option<Payload>, state: RainState)
    requires Valid(d)
    requires FreeOf(d.table, "dateTime") && FreeOf(d.table, "usUnits")
    ensures PollCycle(d, now, aqi, weather, state).0["dateTime"] ==
      (if weather.Some? then weather.value.ts else if aqi.Some? then aqi.value.ts else now)
    ensures PollCycle(d, now, aqi, weather, state).0["usUnits"] == UsUnits
  {
    var (data, stamp) := CycleData(now, aqi, weather);
    var vals := Resolve(d, data);
    UnresolvedKeyKept(d.table, vals, d.rainFactor, Header(stamp), state, "dateTime");
    UnresolvedKeyKept(d.table, vals, d.rainFactor, Header(stamp), state, "usUnits");
  }

  /** No payload condition carries the key `field`. */
  predicate Unreported(p: Option<Payload>, field: string) {
    p.Some? ==> forall i :: 0 <= i < |p.value.conditions| ==> field !in p.value.conditions[i].items
  }

  /** A field absent from every payload leaves every transmitter's key for it out of the index. */
  lemma UnreportedFieldAbsent(now: real, aqi: Option<Payload>, weather: Option<Payload>, field: string, tx: string)
    requires Unreported(aqi, field) && Unreported(weather, field)
    ensures (tx, field) !in CycleData(now, aqi, weather).0
  {
    var (data, stamp) := Fetch(aqi, map[], now);
    if aqi.Some? {
      UnreportedKeyKept(aqi.value.conditions, map[], tx, field);
    }
    if weather.Some? {
      UnreportedKeyKept(weather.value.conditions, data, tx, field);
    }
  }

  /**
   A metric whose field no payload reports is left out of the packet: it is
   not stored as zero or any other placeholder.
   */
  lemma MissingFieldOmitted(d: Driver, now: real, aqi: Option<Payload>, weather: Option<Payload>, state: RainState, m: string)
    requires Valid(d)
    requires m != "dateTime" && m != "usUnits"
    requires forall i :: 0 <= i < |d.table| && d.table[i].metric == m ==>
      Unreported(aqi, d.table[i].info.wllName) && Unreported(weather, d.table[i].info.wllName)
    ensures m !in PollCycle(d, now, aqi, weather, state).0
  {
    var (data, stamp) := CycleData(now, aqi, weather);
    var vals := Resolve(d, data);
    forall i | Resolves(vals, i) ensures d.table[i].metric != m {
      if d.table[i].metric == m {
        var f := d.table[i].info.wllName;
        forall tx ensures !Has(data, tx, f) {
          UnreportedFieldAbsent(now, aqi, weather, f, tx);
        }
        UnreportedIsNull(data, d.txids, d.order, f);
      }
    }
    UnresolvedKeyKept(d.table, vals, d.rainFactor, Header(stamp), state, m);
  }

  /**
   Besides the time and unit keys, a metric is in the packet exactly when
   some entry carrying it resolves to a number.
   */
  lemma CycleKeys(d: Driver, now: real, aqi: Option<Payload>, weather: Option<Payload>, state: RainState, m: string)
    requires Valid(d)
    requires m != "dateTime" && m != "usUnits"
    ensures m in PollCycle(d, now, aqi, weather, state).0 <==>
      exists i :: Resolves(Resolve(d, CycleData(now, aqi, weather).0), i) && d.table[i].metric == m
  {
    var (data, stamp) := CycleData(now, aqi, weather);
    var vals := Resolve(d, data);
    if i :| Resolves(vals, i) && d.table[i].metric == m {
      ResolvedKeyPresent(d.table, vals, d.rainFactor, Header(stamp), state, i);
    } else {
      UnresolvedKeyKept(d.table, vals, d.rainFactor, Header(stamp), state, m);
    }
  }

  /**
   In a catalog without repeated metric names, a metric whose field resolves
   to a number holds that number times the entry's factor, also scaled to
   inches when the entry is the rain rate.
   */
  lemma CycleValue(d: Driver, now: real, aqi: Option<Payload>, weather: Option<Payload>, state: RainState, k: nat)
    requires Valid(d) && UniqueMetrics(d.table)
    requires k < |d.table| && d.table[k].info.post != TrackTotalRain
    requires Resolve(d, CycleData(now, aqi, weather).0)[k].Num?
    ensures var x := Resolve(d, CycleData(now, aqi, weather).0)[k].x;
            var r := PollCycle(d, now, aqi, weather, state);
            var e := d.table[k];
            && e.metric in r.0
            && (e.info.post == NoPost ==> r.0[e.metric] == e.info.Scaled(x))
            && (e.info.post == ScaleRain ==> r.0[e.metric] == Rain.ScaleRain(d.rainFactor, e.info.Scaled(x)))
  {
    PollCycleLoop(d, now, aqi, weather, state);
    ResolvedValue(d.table, Resolve(d, CycleData(now, aqi, weather).0), d.rainFactor, Header(CycleData(now, aqi, weather).1), state, k);
  }

  /** `CycleRain` for the loop over a packet header. */
  lemma RainOfLoop(entries: Table, vals: seq<Value>, rainFactor: real, stamp: real, state: RainState, k: nat)
    requires |vals| == |entries| && SoleRainEntry(entries, k)
    requires FreeOf(entries, "dateTime") && FreeOf(entries, "usUnits")
    ensures var r := Assemble(entries, vals, rainFactor, Header(stamp), state);
            var e := entries[k];
            if vals[k].Num? then
              && e.metric in r.0
              && r.0[e.metric] == Rain.TrackTotalRain(state, rainFactor, e.info.Scaled(vals[k].x)).0
              && r.1 == Some(Rain.ScaleRain(rainFactor, e.info.Scaled(vals[k].x)))
            else
              e.metric !in r.0 && r.1 == state
  {
    if vals[k].Num? {
      TrackedRain(entries, vals, rainFactor, Header(stamp), state, k);
      assert PostProcessed(entries[k].info, rainFactor, state, vals[k].x).0 == Rain.TrackTotalRain(state, rainFactor, entries[k].info.Scaled(vals[k].x)).0;
    } else {
      UntrackedRain(entries, vals, rainFactor, Header(stamp), state, k);
    }
  }

  /**
   Across cycles: when the rain tracking entry's field resolves, its metric
   holds the tracker's delta and the baseline advances to the scaled
   reading; when it does not, the metric is absent and the baseline is kept.
   */
  lemma CycleRain(d: Driver, now: real, aqi: Option<Payload>, weather: Option<Payload>, state: RainState, k: nat)
    requires Valid(d) && SoleRainEntry(d.table, k)
    requires FreeOf(d.table, "dateTime") && FreeOf(d.table, "usUnits")
    ensures var v := Resolve(d, CycleData(now, aqi, weather).0)[k];
            var r := PollCycle(d, now, aqi, weather, state);
            var e := d.table[k];
            if v.Num? then
              && e.metric in r.0
              && r.0[e.metric] == Rain.TrackTotalRain(state, d.rainFactor, e.info.Scaled(v.x)).0
              && r.1 == Some(Rain.ScaleRain(d.rainFactor, e.info.Scaled(v.x)))
            else
              e.metric !in r.0 && r.1 == state
  {
    PollCycleLoop(d, now, aqi, weather, state);
    RainOfLoop(d.table, Resolve(d, CycleData(now, aqi, weather).0), d.rainFactor, CycleData(now, aqi, weather).1, state, k);
  }

  /**
   The shape of a built catalog: no repeated metric name, the rain metric
   as its sole rain tracking entry, read from the monthly rainfall counter
   at factor 1, and no metric named like the time or unit keys.
   */
  predicate Shaped(t: Table) {
    && UniqueMetrics(t)
    && SoleRainEntry(t, 10)
    && t[10] == Entry("rain", SensorInfo("rainfall_monthly", 1.0, "rain", Weather, TrackTotalRain))
    && FreeOf(t, "dateTime") && FreeOf(t, "usUnits")
  }

  /** Every wind choice yields a catalog of that shape. */
  lemma TableShape(choice: int)
    ensures Shaped(SensorTable(choice))
  {
    var t := SensorTable(choice);
    OnlyRainTracksTotal(choice);
    TableMetricsUnique(choice);
    TableFreeOfHostKeys(choice);
    assert forall j :: 0 <= j < |t| && j != 10 ==> t[j].metric != t[10].metric;
    RainRow(choice);
  }

  /** Every driver the constructor builds has a catalog of that shape. */
  lemma MadeDriverShape(cfg: Config)
    ensures Shaped(MakeDriver(cfg).table)
  {
    TableShape(WindChoice(cfg.windMeasurement));
  }
}

=== FILE: rain.dfy ===
/**
 Rain handling: the rain collector's scale factor (inches per bucket tip),
 the stateless rate scaling, and the one piece of state that crosses poll
 cycles, the baseline of the cumulative rain counter, from which each call
 derives the rain that fell since the previous call.
 */
module Rain {
  import opened Wrappers

  const MmToInch: real := 0.0393701

  /**
   Inches per tip of each rain collector type: 1 is 0.01 in, 2 is 0.2 mm,
   3 is 0.1 in, 4 is 0.001 mm; any other type has no factor.
   */
  function RainScaleFactor(collector: int): (r: Option<real>)
    ensures r.Some? <==> 1 <= collector <= 4
    ensures r.Some? ==> r.value > 0.0
    ensures collector == 1 ==> r == Some(0.01)
    ensures collector == 3 ==> r == Some(0.1)
    ensures collector == 2 ==> r == Some(0.2 * MmToInch)
    ensures collector == 4 ==> r == Some(0.001 * MmToInch)
  {
    match collector
    case 1 => Some(0.01)
    case 2 => Some(0.2 * MmToInch)
    case 3 => Some(0.1)
    case 4 => Some(0.001 * MmToInch)
    case _ => None
  }

  /** The configured collector type, replaced by type 1 when it is not one of 1 to 4. */
  function ValidCollector(collector: int): (r: int)
    ensures 1 <= r <= 4
    ensures 1 <= collector <= 4 ==> r == collector
    ensures !(1 <= collector <= 4) ==> r == 1
  {
    if collector in {1, 2, 3, 4} then collector else 1
  }

  /** After validation the factor lookup always succeeds, with a positive factor. */
  lemma ValidCollectorHasFactor(collector: int)
    ensures RainScaleFactor(ValidCollector(collector)).Some?
    ensures RainScaleFactor(ValidCollector(collector)).value > 0.0
    ensures !(1 <= collector <= 4) ==> RainScaleFactor(ValidCollector(collector)) == Some(0.01)
  {
  }

  /** Converts an amount in collector tips to inches; used for the rain rate. */
  function ScaleRain(factor: real, amount: real): real {
    amount * factor
  }

  /**
   With a positive factor, scaling keeps the order of readings, so the
   tracker's reset test on scaled values is the same test on raw counts.
   */
  lemma ScaleRainKeepsOrder(factor: real, a: real, b: real)
    requires factor > 0.0
    ensures ScaleRain(factor, a) < ScaleRain(factor, b) <==> a < b
    ensures ScaleRain(factor, a) == ScaleRain(factor, b) <==> a == b
  {
  }

  /**
   The baseline of the cumulative counter, in inches: None until the first
   reading, then the scaled value of the most recent reading.
   */
  type RainState = Option<real>

  /**
   One call of the rain tracker on a counter reading in tips. The reading is
   scaled first, so the baseline is kept in inches. The first call reports
   0; a reading below the baseline means the counter restarted, and
   the whole reading counts as new rain; otherwise the increase counts.
   */
  function TrackTotalRain(baseline: RainState, factor: real, amount: real): (r: (real, RainState))
    ensures r.1 == Some(ScaleRain(factor, amount))
    ensures baseline.None? ==> r.0 == 0.0
    ensures baseline.Some? && ScaleRain(factor, amount) >= baseline.value ==>
      r.0 == ScaleRain(factor, amount) - baseline.value && r.0 >= 0.0
    ensures baseline.Some? && ScaleRain(factor, amount) < baseline.value ==>
      r.0 == ScaleRain(factor, amount)
    ensures ScaleRain(factor, amount) >= 0.0 ==> r.0 >= 0.0
  {
    var scaled := ScaleRain(factor, amount);
    var prior :=
      match baseline
      case None => scaled
      case Some(b) => if scaled < b then 0.0 else b;
    (scaled - prior, Some(scaled))
  }

  /** The deltas reported by calling the tracker on each reading of `amounts` in turn, and the final baseline. */
  function RunTracker(baseline: RainState, factor: real, amounts: seq<real>): (r: (seq<real>, RainState))
    ensures |r.0| == |amounts|
    ensures amounts == [] ==> r.1 == baseline
    ensures amounts != [] ==> r.1 == Some(ScaleRain(factor, amounts[|amounts| - 1]))
    decreases |amounts|
  {
    if amounts == [] then ([], baseline)
    else
      var (delta, next) := TrackTotalRain(baseline, factor, amounts[0]);
      var (rest, last) := RunTracker(next, factor, amounts[1..]);
      ([delta] + rest, last)
  }

  function Sum(xs: seq<real>): real {
    if xs == [] then 0.0 else xs[0] + Sum(xs[1..])
  }

  /** The scaled readings never decrease. */
  predicate NonDecreasing(factor: real, amounts: seq<real>) {
    forall i, j :: 0 <= i < j < |amounts| ==> ScaleRain(factor, amounts[i]) <= ScaleRain(factor, amounts[j])
  }

  /**
   Over readings that never decrease, starting from a baseline no higher
   than the first reading, the reported deltas add up to the rise from the
   baseline to the last reading, and none is negative.
   */
  lemma {:induction false} TrackerSumsRise(b: real, factor: real, amounts: seq<real>)
    requires amounts != []
    requires b <= ScaleRain(factor, amounts[0])
    requires NonDecreasing(factor, amounts)
    ensures Sum(RunTracker(Some(b), factor, amounts).0) == ScaleRain(factor, amounts[|amounts| - 1]) - b
    ensures forall i :: 0 <= i < |amounts| ==> RunTracker(Some(b), factor, amounts).0[i] >= 0.0
    decreases |amounts|
  {
    var s0 := ScaleRain(factor, amounts[0]);
    var r := RunTracker(Some(b), factor, amounts);
    if |amounts| > 1 {
      assert NonDecreasing(factor, amounts[1..]) by {
        forall i, j | 0 <= i < j < |amounts| - 1
          ensures ScaleRain(factor, amounts[1..][i]) <= ScaleRain(factor, amounts[1..][j])
        {
          assert amounts[1..][i] == amounts[i + 1] && amounts[1..][j] == amounts[j + 1];
        }
      }
      assert s0 <= ScaleRain(factor, amounts[1]);
      TrackerSumsRise(s0, factor, amounts[1..]);
      assert r.0 == [s0 - b] + RunTracker(Some(s0), factor, amounts[1..]).0;
      assert amounts[1..][|amounts[1..]| - 1] == amounts[|amounts| - 1];
    }
  }

  /**
   From the first call on, over readings that never decrease, the deltas add
   up to the rise from the first reading to the last, and the first is zero.
   */
  lemma {:induction false} FirstRunSumsRise(factor: real, amounts: seq<real>)
    requires amounts != []
    requires NonDecreasing(factor, amounts)
    ensures RunTracker(None, factor, amounts).0[0] == 0.0
    ensures Sum(RunTracker(None, factor, amounts).0) ==
      ScaleRain(factor, amounts[|amounts| - 1]) - ScaleRain(factor, amounts[0])
    ensures forall i :: 0 <= i < |amounts| ==> RunTracker(None, factor, amounts).0[i] >= 0.0
  {
    var s0 := ScaleRain(factor, amounts[0]);
    var r := RunTracker(None, factor, amounts);
    assert r.0 == [0.0] + RunTracker(Some(s0), factor, amounts[1..]).0;
    if |amounts| > 1 {
      assert NonDecreasing(factor, amounts[1..]) by {
        forall i, j | 0 <= i < j < |amounts| - 1
          ensures ScaleRain(factor, amounts[1..][i]) <= ScaleRain(factor, amounts[1..][j])
        {
          assert amounts[1..][i] == amounts[i + 1] && amounts[1..][j] == amounts[j + 1];
        }
      }
      assert s0 <= ScaleRain(factor, amounts[1]);
      TrackerSumsRise(s0, factor, amounts[1..]);
      assert amounts[1..][|amounts[1..]| - 1] == amounts[|amounts| - 1];
    }
  }

  /** When no scaled reading is negative, no reported delta is negative, whatever resets occur. */
  lemma {:induction false} TrackerNeverNegative(baseline: RainState, factor: real, amounts: seq<real>)
    requires forall i :: 0 <= i < |amounts| ==> ScaleRain(factor, amounts[i]) >= 0.0
    ensures forall i :: 0 <= i < |amounts| ==> RunTracker(baseline, factor, amounts).0[i] >= 0.0
    decreases |amounts|
  {
    if amounts != [] {
      var (delta, next) := TrackTotalRain(baseline, factor, amounts[0]);
      assert forall i :: 0 <= i < |amounts| - 1 ==> amounts[1..][i] == amounts[i + 1];
      TrackerNeverNegative(next, factor, amounts[1..]);
    }
  }

  /** The worked example: readings 0.0, 0.5, 1.2, 0.3, 0.9 (already in inches) give 0.0, 0.5, 0.7, 0.3, 0.6. */
  lemma TrackerExample()
    ensures RunTracker(None, 1.0, [0.0, 0.5, 1.2, 0.3, 0.9]).0 == [0.0, 0.5, 0.7, 0.3, 0.6]
  {
  }
}

=== FILE: readings.dfy ===
/**
 The reading index: every payload's `conditions` array flattened into one
 map keyed by (transmitter id, field name). The transmitter id of a
 condition comes from its record type: its own txid for the per-transmitter
 suites, fixed ids for barometer, indoor and air quality records.
 */
module Readings {
  import opened Wrappers
  import opened Text

  /** A JSON field value: null or a number. */
  datatype Value = Null | Num(x: real)

  /** One element of a `conditions` array: all of its keys, with their values. */
  datatype Condition = Condition(items: map<string, Value>)

  /** The index, keyed by (transmitter id, field name). */
  type Index = map<(string, string), Value>

  /** Where a condition's fields are filed. */
  datatype Keying =
    | Under(txid: string)   // the transmitter id its fields are stored under
    | Skip                  // a record type the driver does not know
    | Malformed             // a key the driver reads is missing or unusable

  /**
   The text `str` gives for a txid value: integral numbers in canonical
   decimal (no leading zero, a minus sign only for negatives), which reads
   back as the same integer, and null as "None", which reads as no integer
   at all. Other numbers have no text in this model.
   */
  function TxidText(v: Value): (r: Option<string>)
    ensures v.Null? ==> r == Some("None") && ParseInt(r.value) == None
    ensures v.Num? ==> (r.Some? <==> v.x == v.x.Floor as real)
    ensures v.Num? && r.Some? ==> ParseInt(r.value) == Some(v.x.Floor)
    ensures v.Num? && r.Some? && v.x >= 0.0 ==> IsDigits(r.value) && (r.value[0] != '0' || r.value == "0")
    ensures v.Num? && r.Some? && v.x < 0.0 ==>
      |r.value| >= 2 && r.value[0] == '-' && IsDigits(r.value[1..]) && r.value[1] != '0'
  {
    match v
    case Null => assert "None"[0] == 'N'; Some("None")
    case Num(x) =>
      if x == x.Floor as real then ParseIntToDecimal(x.Floor); Some(IntToDecimal(x.Floor)) else None
  }

  /**
   The id a condition's fields are filed under: its txid for record types 1
   and 2, "B" for 3 (barometer), "I" for 4 (indoor), "A" for 6 (air quality).
   */
  function KeyingOf(c: Condition): (k: Keying)
    ensures "data_structure_type" !in c.items ==> k == Malformed
    ensures "data_structure_type" in c.items && c.items["data_structure_type"] in {Num(1.0), Num(2.0)} ==>
      if "txid" !in c.items || TxidText(c.items["txid"]).None? then k == Malformed
      else k == Under(TxidText(c.items["txid"]).value)
    ensures "data_structure_type" in c.items && c.items["data_structure_type"] == Num(3.0) ==> k == Under("B")
    ensures "data_structure_type" in c.items && c.items["data_structure_type"] == Num(4.0) ==> k == Under("I")
    ensures "data_structure_type" in c.items && c.items["data_structure_type"] == Num(6.0) ==> k == Under("A")
    ensures "data_structure_type" in c.items && c.items["data_structure_type"] !in {Num(1.0), Num(2.0), Num(3.0), Num(4.0), Num(6.0)} ==>
      k == Skip
  {
    if "data_structure_type" !in c.items then Malformed
    else
      var recordType := c.items["data_structure_type"];
      if recordType == Num(1.0) || recordType == Num(2.0) then
        if "txid" !in c.items then Malformed
        else
          match TxidText(c.items["txid"])
          case None => Malformed
          case Some(txid) => Under(txid)
      else if recordType == Num(3.0) then Under("B")
      else if recordType == Num(4.0) then Under("I")
      else if recordType == Num(6.0) then Under("A")
      else Skip
  }

  /** Stores every key of the condition under `txid`, replacing earlier values of the same key. */
  function Ingest(data: Index, txid: string, c: Condition): (r: Index)
    ensures forall k :: k in c.items ==> (txid, k) in r && r[(txid, k)] == c.items[k]
    ensures forall key :: key in data && !(key.0 == txid && key.1 in c.items) ==> key in r && r[key] == data[key]
    ensures forall key :: key in r ==> key in data || (key.0 == txid && key.1 in c.items)
  {
    data + map k | k in c.items :: (txid, k) := c.items[k]
  }

  /**
   Files the conditions in order. A malformed condition ends the payload:
   the conditions before it stay filed, and the flag is false.
   */
  function ParseIntoData(conds: seq<Condition>, data: Index): (r: (Index, bool))
    ensures data.Keys <= r.0.Keys
    ensures r.1 <==> WellFormed(conds)
    decreases |conds|
  {
    if conds == [] then (data, true)
    else
      assert forall i :: 0 <= i < |conds| - 1 ==> conds[1..][i] == conds[i + 1];
      assert WellFormed(conds) <==> KeyingOf(conds[0]) != Malformed && WellFormed(conds[1..]);
      match KeyingOf(conds[0])
      case Malformed => (data, false)
      case Skip => ParseIntoData(conds[1..], data)
      case Under(txid) => ParseIntoData(conds[1..], Ingest(data, txid, conds[0]))
  }

  /** Whether condition `c` carries field `field` under transmitter `txid`. */
  predicate Reports(c: Condition, txid: string, field: string) {
    KeyingOf(c) == Under(txid) && field in c.items
  }

  predicate WellFormed(conds: seq<Condition>) {
    forall i :: 0 <= i < |conds| ==> KeyingOf(conds[i]) != Malformed
  }

  /** A key that no condition reports keeps its earlier value, or stays absent. */
  lemma {:induction false} UnreportedKeyKept(conds: seq<Condition>, data: Index, txid: string, field: string)
    requires forall i :: 0 <= i < |conds| ==> !Reports(conds[i], txid, field)
    ensures (txid, field) in ParseIntoData(conds, data).0 <==> (txid, field) in data
    ensures (txid, field) in data ==> ParseIntoData(conds, data).0[(txid, field)] == data[(txid, field)]
    decreases |conds|
  {
    if conds != [] {
      assert forall i :: 0 <= i < |conds| - 1 ==> conds[1..][i] == conds[i + 1];
      match KeyingOf(conds[0])
      case Malformed =>
      case Skip => UnreportedKeyKept(conds[1..], data, txid, field);
      case Under(tx) => UnreportedKeyKept(conds[1..], Ingest(data, tx, conds[0]), txid, field);
    }
  }

  /** In well-formed conditions, a key holds the value of the last condition that reports it. */
  lemma {:induction false} LastReportWins(conds: seq<Condition>, data: Index, txid: string, field: string, k: nat)
    requires WellFormed(conds)
    requires k < |conds| && Reports(conds[k], txid, field)
    requires forall j :: k < j < |conds| ==> !Reports(conds[j], txid, field)
    ensures (txid, field) in ParseIntoData(conds, data).0
    ensures ParseIntoData(conds, data).0[(txid, field)] == conds[k].items[field]
    decreases |conds|
  {
    var rest := conds[1..];
    assert forall i :: 0 <= i < |rest| ==> rest[i] == conds[i + 1];
    assert KeyingOf(conds[0]) != Malformed;
    var data' := FiledFirst(conds, data);
    if k == 0 {
      assert (txid, field) in data' && data'[(txid, field)] == conds[0].items[field];
      UnreportedKeyKept(rest, data', txid, field);
    } else {
      assert WellFormed(rest);
      LastReportWins(rest, data', txid, field, k - 1);
    }
  }

  /** The index after the first condition, a well-formed one, is filed; the rest continue from it. */
  function FiledFirst(conds: seq<Condition>, data: Index): (r: Index)
    requires conds != [] && KeyingOf(conds[0]) != Malformed
    ensures ParseIntoData(conds, data) == ParseIntoData(conds[1..], r)
    ensures KeyingOf(conds[0]).Under? ==> r == Ingest(data, KeyingOf(conds[0]).txid, conds[0])
  {
    match KeyingOf(conds[0])
    case Under(tx) => Ingest(data, tx, conds[0])
    case Skip => data
  }

  /** A malformed condition stops the payload: the result is what the conditions before it produce. */
  lemma {:induction false} MalformedStops(conds: seq<Condition>, data: Index, k: nat)
    requires k < |conds| && KeyingOf(conds[k]) == Malformed
    requires WellFormed(conds[..k])
    ensures ParseIntoData(conds, data) == (ParseIntoData(conds[..k], data).0, false)
    decreases k
  {
    if k > 0 {
      assert conds[..k][0] == conds[0];
      assert KeyingOf(conds[0]) != Malformed;
      var pre := conds[1..][..k - 1];
      assert conds[..k][1..] == pre;
      assert WellFormed(pre) by {
        forall i | 0 <= i < |pre| ensures KeyingOf(pre[i]) != Malformed {
          assert pre[i] == conds[..k][i + 1];
        }
      }
      match KeyingOf(conds[0])
      case Skip => MalformedStops(conds[1..], data, k - 1);
      case Under(tx) => MalformedStops(conds[1..], Ingest(data, tx, conds[0]), k - 1);
    }
  }

  /**
   Record types 1 and 2 with an integral txid are filed under its decimal
   spelling, which reads back as that txid: suites with different txids
   never share an id.
   */
  lemma SuiteKeyedByTxid(c: Condition, n: int)
    requires "data_structure_type" in c.items && c.items["data_structure_type"] in {Num(1.0), Num(2.0)}
    requires "txid" in c.items && c.items["txid"] == Num(n as real)
    ensures KeyingOf(c) == Under(IntToDecimal(n))
    ensures ParseInt(KeyingOf(c).txid) == Some(n)
  {
    ParseIntToDecimal(n);
  }
}

=== FILE: registry.dfy ===
/**
 The transmitter registry: for every device field of the catalog, the id of
 the transmitter whose reading is preferred. Each field first gets the
 default id of its metric's group; then whitespace-separated `metric:txid`
 tokens from the configuration override single metrics, best effort.
 */
module Registry {
  import opened Wrappers
  import opened Text
  import opened Catalog

  /** Preferred transmitter id per device field. */
  type Assignment = map<string, string>

  /** The default id of each group: configured for weather and soil, fixed for the others. */
  function GroupDefault(g: Group, weatherId: string, soilId: string): string {
    match g
    case Weather => weatherId
    case Soil => soilId
    case Bar => "B"
    case Indoor => "I"
    case AirQuality => "A"
  }

  /** The device fields named by a table. */
  function Fields(t: Table): set<string> {
    set i | 0 <= i < |t| :: t[i].info.wllName
  }

  lemma FieldsOfPrefix(t: Table)
    requires t != []
    ensures Fields(t) == Fields(t[..|t| - 1]) + {t[|t| - 1].info.wllName}
  {
    forall f | f in Fields(t) ensures f in Fields(t[..|t| - 1]) + {t[|t| - 1].info.wllName} {
      var i :| 0 <= i < |t| && t[i].info.wllName == f;
      if i < |t| - 1 {
        assert t[..|t| - 1][i] == t[i];
      }
    }
  }

  /** Gives every field of the table its group's default id, visiting entries in order. */
  function InitDefaults(t: Table, weatherId: string, soilId: string): (a: Assignment)
    ensures a.Keys == Fields(t)
  {
    if t == [] then map[]
    else
      var last := t[|t| - 1];
      FieldsOfPrefix(t);
      InitDefaults(t[..|t| - 1], weatherId, soilId)[last.info.wllName := GroupDefault(last.info.group, weatherId, soilId)]
  }

  /**
   Every field gets the default id of its entry's group; when several entries
   share a field, the last of them decides.
   */
  lemma {:induction false} DefaultsByGroup(t: Table, weatherId: string, soilId: string, i: nat)
    requires i < |t|
    requires forall j :: i < j < |t| ==> t[j].info.wllName != t[i].info.wllName
    ensures InitDefaults(t, weatherId, soilId)[t[i].info.wllName] == GroupDefault(t[i].info.group, weatherId, soilId)
  {
    if i < |t| - 1 {
      var init := t[..|t| - 1];
      assert init[i] == t[i];
      forall j | i < j < |init| ensures init[j].info.wllName != init[i].info.wllName {
        assert init[j] == t[j];
      }
      DefaultsByGroup(init, weatherId, soilId, i);
    }
  }

  /** A mapping token with exactly one colon, split into metric and transmitter id. */
  function ParseMapping(token: string): (r: Option<(string, string)>)
    ensures r.Some? <==> Count(token, ':') == 1
    ensures r.Some? ==> token == r.value.0 + ":" + r.value.1
    ensures r.Some? ==> ':' !in r.value.0 && ':' !in r.value.1
  {
    var parts := Split(token, ':');
    SplitJoin(token, ':');
    if |parts| == 2 then Some((parts[0], parts[1])) else None
  }

  /** The field a token overrides and the id it gives it, when the token is usable. */
  function Override(t: Table, token: string): (r: Option<(string, string)>)
    ensures r.Some? <==> ParseMapping(token).Some? && Lookup(t, ParseMapping(token).value.0).Some?
    ensures r.Some? ==> r.value.0 in Fields(t)
  {
    match ParseMapping(token)
    case None => None
    case Some((metric, txid)) =>
      match Lookup(t, metric)
      case None => None
      case Some(info) => Some((info.wllName, txid))
  }

  /** Whether `token` is usable and overrides `field`. */
  predicate Targets(t: Table, token: string, field: string) {
    Override(t, token).Some? && Override(t, token).value.0 == field
  }

  /** Applies the tokens in order; a token that is not usable leaves the assignment as it was. */
  function ApplyMappings(t: Table, a: Assignment, tokens: seq<string>): (r: Assignment)
    ensures a.Keys <= r.Keys <= a.Keys + Fields(t)
  {
    if tokens == [] then a
    else
      var r := ApplyMappings(t, a, tokens[..|tokens| - 1]);
      match Override(t, tokens[|tokens| - 1])
      case None => r
      case Some((field, txid)) => r[field := txid]
  }

  /** The registry as built at start-up: group defaults first, then the mapping tokens. */
  function InitTxids(t: Table, weatherId: string, soilId: string, mappings: string): (a: Assignment)
    ensures a.Keys == Fields(t)
  {
    ApplyMappings(t, InitDefaults(t, weatherId, soilId), Words(mappings))
  }

  /**
   Mapping text with any whitespace layout (tabs, repeated blanks, leading
   or trailing blanks) applies exactly its tokens, in order.
   */
  lemma MappingsOfLayout(t: Table, weatherId: string, soilId: string, gaps: seq<string>, tokens: seq<string>, trail: string)
    requires |gaps| == |tokens|
    requires forall i :: 0 <= i < |tokens| ==> tokens[i] != [] && NoSpace(tokens[i])
    requires forall i :: 0 <= i < |gaps| ==> AllSpace(gaps[i])
    requires forall i :: 0 < i < |gaps| ==> gaps[i] != []
    requires AllSpace(trail)
    ensures InitTxids(t, weatherId, soilId, Spread(gaps, tokens) + trail) == ApplyMappings(t, InitDefaults(t, weatherId, soilId), tokens)
  {
    WordsOfSpread(gaps, tokens, trail);
  }

  /** A field that no usable token targets keeps the id it had before the tokens. */
  lemma {:induction false} UntargetedFieldKept(t: Table, a: Assignment, tokens: seq<string>, field: string)
    requires field in a
    requires forall k :: 0 <= k < |tokens| ==> !Targets(t, tokens[k], field)
    ensures ApplyMappings(t, a, tokens)[field] == a[field]
  {
    if tokens != [] {
      var init := tokens[..|tokens| - 1];
      assert forall k :: 0 <= k < |init| ==> init[k] == tokens[k];
      UntargetedFieldKept(t, a, init, field);
    }
  }

  /** A field targeted by usable tokens ends up with the id of the last of them. */
  lemma {:induction false} LastOverrideWins(t: Table, a: Assignment, tokens: seq<string>, field: string, k: nat)
    requires k < |tokens| && Targets(t, tokens[k], field)
    requires forall j :: k < j < |tokens| ==> !Targets(t, tokens[j], field)
    ensures field in ApplyMappings(t, a, tokens)
    ensures ApplyMappings(t, a, tokens)[field] == Override(t, tokens[k]).value.1
  {
    var init := tokens[..|tokens| - 1];
    if k < |tokens| - 1 {
      assert forall j :: 0 <= j < |init| ==> init[j] == tokens[j];
      LastOverrideWins(t, a, init, field, k);
    }
  }

  /** A token that is not usable changes nothing. */
  lemma UnusableTokenIgnored(t: Table, a: Assignment, tokens: seq<string>, token: string)
    requires Override(t, token).None?
    ensures ApplyMappings(t, a, tokens + [token]) == ApplyMappings(t, a, tokens)
  {
    assert (tokens + [token])[..|tokens|] == tokens;
  }

  /** A usable token sets its metric's field, and only that field. */
  lemma UsableTokenSets(t: Table, a: Assignment, tokens: seq<string>, metric: string, txid: string)
    requires Lookup(t, metric).Some?
    requires ':' !in metric && ':' !in txid
    ensures ApplyMappings(t, a, tokens + [metric + ":" + txid]) ==
      ApplyMappings(t, a, tokens)[Lookup(t, metric).value.wllName := txid]
  {
    var token := metric + ":" + txid;
    assert (tokens + [token])[..|tokens|] == tokens;
    MappingOfMetric(metric, txid);
  }

  /** A token built from a metric name without colon and any id without colon parses back to them. */
  lemma MappingOfMetric(metric: string, txid: string)
    requires ':' !in metric && ':' !in txid
    ensures ParseMapping(metric + ":" + txid) == Some((metric, txid))
  {
    var token := metric + ":" + txid;
    CountSplit(token, ':', |metric|);
    assert token[..|metric|] == metric;
    CountAbsent(metric, ':');
    assert token[|metric|..] == [':'] + txid;
    assert token[|metric|..][1..] == txid;
    CountAbsent(txid, ':');
    var (m, x) := ParseMapping(token).value;
    SplitAtSoleSep(m, x, metric, txid, ':');
  }

  /**
   The default pass over the catalog slots as the constructor stores them:
   reading the field name of a tuple-wrapped slot fails, and the failure
   ends construction (None).
   */
  function InitDefaultsAsWritten(slots: seq<Slot>, weatherId: string, soilId: string): (r: Option<Assignment>)
    ensures r.None? <==> exists i :: 0 <= i < |slots| && slots[i].OneTuple?
  {
    if slots == [] then Some(map[])
    else
      var init := slots[..|slots| - 1];
      assert forall i :: 0 <= i < |init| ==> init[i] == slots[i];
      match InitDefaultsAsWritten(init, weatherId, soilId)
      case None => None
      case Some(a) =>
        match slots[|slots| - 1]
        case OneTuple(_) => None
        case Record(info) => Some(a[info.wllName := GroupDefault(info.group, weatherId, soilId)])
  }

  /** On slots that are all records, the as-written pass computes the modelled defaults. */
  lemma {:induction false} RecordSlotsAgree(t: Table, slots: seq<Slot>, weatherId: string, soilId: string)
    requires |slots| == |t|
    requires forall i :: 0 <= i < |t| ==> slots[i] == Record(t[i].info)
    ensures InitDefaultsAsWritten(slots, weatherId, soilId) == Some(InitDefaults(t, weatherId, soilId))
  {
    if t != [] {
      RecordSlotsAgree(t[..|t| - 1], slots[..|slots| - 1], weatherId, soilId);
    }
  }

  /** As written, choosing the 2-minute wind average makes construction fail. */
  lemma WindTwoFailsAsWritten(weatherId: string, soilId: string)
    ensures InitDefaultsAsWritten(SlotsAsWritten(2), weatherId, soilId).None?
  {
    assert SlotsAsWritten(2)[6].OneTuple?;
  }

  /** As written, every other wind choice builds exactly the modelled defaults. */
  lemma OtherWindChoicesAgree(choice: int, weatherId: string, soilId: string)
    requires choice != 2
    ensures InitDefaultsAsWritten(SlotsAsWritten(choice), weatherId, soilId) ==
      Some(InitDefaults(SensorTable(choice), weatherId, soilId))
  {
    var t := SensorTable(choice);
    var slots := SlotsAsWritten(choice);
    forall i | 0 <= i < |t| ensures slots[i] == Record(t[i].info) {
      if i == 6 && !(0 <= choice <= 1) {
        assert t == BaseTable();
      }
    }
    RecordSlotsAgree(t, slots, weatherId, soilId);
  }

  /** With the intended entry, the 2-minute wind field gets a registry entry like every other field. */
  lemma WindTwoCorrected(choice: int, weatherId: string, soilId: string, mappings: string)
    requires choice == 2  // the one value this lemma is about; a parameter rather than a literal keeps the solver from unfolding it
    ensures "wind_speed_avg_last_2_min" in InitTxids(SensorTable(choice), weatherId, soilId, mappings)
    ensures "wind_dir_scalar_avg_last_2_min" in InitTxids(SensorTable(choice), weatherId, soilId, mappings)
  {
    var t := SensorTable(choice);
    assert t[6].info == WindInfos(choice).0 && t[7].info == WindInfos(choice).1;
    FieldRegistered(t, 6, weatherId, soilId, mappings);
    FieldRegistered(t, 7, weatherId, soilId, mappings);
  }

  lemma FieldRegistered(t: Table, i: nat, weatherId: string, soilId: string, mappings: string)
    requires i < |t|
    ensures t[i].info.wllName in InitTxids(t, weatherId, soilId, mappings)
  {
    assert t[i].info.wllName in Fields(t);
  }

  /** A token naming an entry's metric, in a table without repeated metric names, overrides that entry's field. */
  lemma OverrideOfEntry(t: Table, i: nat, txid: string)
    requires UniqueMetrics(t) && i < |t|
    requires ':' !in t[i].metric && ':' !in txid
    ensures Override(t, t[i].metric + ":" + txid) == Some((t[i].info.wllName, txid))
  {
    LookupUnique(t, i);
    MappingOfMetric(t[i].metric, txid);
  }

  /** The mapping string of `MappingScenario` splits into its two tokens. */
  lemma ScenarioWords(mappings: string)
    requires mappings == "outTemp:A windSpeed:5"  // the one value this lemma is about; a parameter rather than a literal keeps the solver from unfolding it
    ensures Words(mappings) == ["outTemp:A", "windSpeed:5"]
  {
    var tokens := ["outTemp:A", "windSpeed:5"];
    assert Unwords(tokens) == mappings;
    WordsUnwords(tokens);
  }

  /**
   Two usable tokens, the first overriding the field of entry `i` with `x`,
   the second that of entry `j` with `y`, on a table without repeated field
   names.
   */
  predicate TwoTokens(t: Table, i: nat, x: string, j: nat, y: string, tokens: seq<string>) {
    && UniqueFields(t)
    && i < |t| && j < |t| && i != j
    && |tokens| == 2
    && Override(t, tokens[0]) == Some((t[i].info.wllName, x))
    && Override(t, tokens[1]) == Some((t[j].info.wllName, y))
  }

  lemma FirstOverrideLands(t: Table, a: Assignment, i: nat, x: string, j: nat, y: string, tokens: seq<string>)
    requires TwoTokens(t, i, x, j, y, tokens)
    ensures t[i].info.wllName in ApplyMappings(t, a, tokens)
    ensures ApplyMappings(t, a, tokens)[t[i].info.wllName] == x
  {
    assert t[i].info.wllName != t[j].info.wllName;
    assert Targets(t, tokens[0], t[i].info.wllName) && !Targets(t, tokens[1], t[i].info.wllName);
    LastOverrideWins(t, a, tokens, t[i].info.wllName, 0);
  }

  lemma SecondOverrideLands(t: Table, a: Assignment, i: nat, x: string, j: nat, y: string, tokens: seq<string>)
    requires TwoTokens(t, i, x, j, y, tokens)
    ensures t[j].info.wllName in ApplyMappings(t, a, tokens)
    ensures ApplyMappings(t, a, tokens)[t[j].info.wllName] == y
  {
    assert Targets(t, tokens[1], t[j].info.wllName);
    LastOverrideWins(t, a, tokens, t[j].info.wllName, 1);
  }

  lemma OtherFieldSpared(t: Table, weatherId: string, soilId: string, i: nat, x: string, j: nat, y: string, tokens: seq<string>, l: nat)
    requires TwoTokens(t, i, x, j, y, tokens)
    requires l < |t| && l != i && l != j
    ensures t[l].info.wllName in ApplyMappings(t, InitDefaults(t, weatherId, soilId), tokens)
    ensures ApplyMappings(t, InitDefaults(t, weatherId, soilId), tokens)[t[l].info.wllName] ==
      GroupDefault(t[l].info.group, weatherId, soilId)
  {
    var fl := t[l].info.wllName;
    assert fl != t[i].info.wllName && fl != t[j].info.wllName;
    DefaultsByGroup(t, weatherId, soilId, l);
    assert fl in Fields(t);
    forall k | 0 <= k < |tokens| ensures !Targets(t, tokens[k], fl) {
      assert k == 0 || k == 1;
    }
    UntargetedFieldKept(t, InitDefaults(t, weatherId, soilId), tokens, fl);
  }

  /**
   Two usable tokens for different metrics, on a table without repeated
   metric or field names: each sets its own metric's field, and every other
   field keeps its group default.
   */
  lemma TwoOverrides(t: Table, weatherId: string, soilId: string, i: nat, x: string, j: nat, y: string, l: nat)
    requires UniqueMetrics(t) && UniqueFields(t)
    requires i < |t| && j < |t| && l < |t| && i != j && l != i && l != j
    requires ':' !in t[i].metric && ':' !in x && ':' !in t[j].metric && ':' !in y
    ensures var a := ApplyMappings(t, InitDefaults(t, weatherId, soilId), [t[i].metric + ":" + x, t[j].metric + ":" + y]);
            && a[t[i].info.wllName] == x
            && a[t[j].info.wllName] == y
            && a[t[l].info.wllName] == GroupDefault(t[l].info.group, weatherId, soilId)
  {
    var tokens := [t[i].metric + ":" + x, t[j].metric + ":" + y];
    OverrideOfEntry(t, i, x);
    OverrideOfEntry(t, j, y);
    var d := InitDefaults(t, weatherId, soilId);
    FirstOverrideLands(t, d, i, x, j, y, tokens);
    SecondOverrideLands(t, d, i, x, j, y, tokens);
    OtherFieldSpared(t, weatherId, soilId, i, x, j, y, tokens, l);
  }

  /** A token naming a known metric, both sides without colon, overrides that metric's field. */
  lemma OverrideOfMetric(t: Table, metric: string, txid: string)
    requires Lookup(t, metric).Some?
    requires ':' !in metric && ':' !in txid
    ensures Override(t, metric + ":" + txid) == Some((Lookup(t, metric).value.wllName, txid))
  {
    MappingOfMetric(metric, txid);
  }

  /** Tokens `m0:x` and `m1:y` for the metrics of entries `i` and `j`. */
  lemma TwoTokensOf(t: Table, i: nat, m0: string, x: string, j: nat, m1: string, y: string, tokens: seq<string>)
    requires UniqueFields(t) && i < |t| && j < |t| && i != j
    requires Lookup(t, m0) == Some(t[i].info) && Lookup(t, m1) == Some(t[j].info)
    requires ':' !in m0 && ':' !in x && ':' !in m1 && ':' !in y
    requires tokens == [m0 + ":" + x, m1 + ":" + y]
    ensures TwoTokens(t, i, x, j, y, tokens)
  {
    OverrideOfMetric(t, m0, x);
    OverrideOfMetric(t, m1, y);
  }

  /** The tokens of `MappingScenario` override the outdoor temperature and wind speed entries. */
  lemma ScenarioTokens(t: Table, tokens: seq<string>)
    requires tokens == ["outTemp:A", "windSpeed:5"]
    requires UniqueFields(t) && |t| > 6
    requires Lookup(t, "outTemp") == Some(t[0].info) && Lookup(t, "windSpeed") == Some(t[6].info)
    ensures TwoTokens(t, 0, "A", 6, "5", tokens)
  {
    assert "outTemp" + ":" + "A" == "outTemp:A";
    assert "windSpeed" + ":" + "5" == "windSpeed:5";
    TwoTokensOf(t, 0, "outTemp", "A", 6, "windSpeed", "5", tokens);
  }

  /** The catalog rows the scenario touches, whatever the wind choice. */
  lemma ScenarioRows(choice: int)
    ensures var t := SensorTable(choice);
            && UniqueFields(t) && |t| > 6
            && Lookup(t, "outTemp") == Some(t[0].info) && Lookup(t, "windSpeed") == Some(t[6].info)
            && t[0].info.wllName == "temp" && t[1].info.wllName == "hum" && t[1].info.group == Weather
  {
    var t := SensorTable(choice);
    TableMetricsUnique(choice);
    TableFieldsUnique(choice);
    assert t[0] == BaseRow(0) && t[1] == BaseRow(1) && t[6].metric == "windSpeed";
    LookupUnique(t, 0);
    LookupUnique(t, 6);
  }

  /** The two scenario tokens applied over the defaults of any table whose rows 0, 1 and 6 are as in the catalog. */
  lemma ScenarioOnTable(t: Table, weatherId: string, soilId: string, tokens: seq<string>)
    requires TwoTokens(t, 0, "A", 6, "5", tokens)
    requires t[0].info.wllName == "temp" && t[1].info.wllName == "hum" && t[1].info.group == Weather
    ensures var a := ApplyMappings(t, InitDefaults(t, weatherId, soilId), tokens);
            && "temp" in a && a["temp"] == "A"
            && t[6].info.wllName in a && a[t[6].info.wllName] == "5"
            && "hum" in a && a["hum"] == weatherId
            && forall l :: 0 <= l < |t| && l != 0 && l != 6 ==>
                 t[l].info.wllName in a && a[t[l].info.wllName] == GroupDefault(t[l].info.group, weatherId, soilId)
  {
    var d := InitDefaults(t, weatherId, soilId);
    FirstOverrideLands(t, d, 0, "A", 6, "5", tokens);
    SecondOverrideLands(t, d, 0, "A", 6, "5", tokens);
    forall l | 0 <= l < |t| && l != 0 && l != 6
      ensures t[l].info.wllName in ApplyMappings(t, d, tokens)
      ensures ApplyMappings(t, d, tokens)[t[l].info.wllName] == GroupDefault(t[l].info.group, weatherId, soilId)
    {
      OtherFieldSpared(t, weatherId, soilId, 0, "A", 6, "5", tokens, l);
    }
  }

  /**
   With the mappings "outTemp:A windSpeed:5": the outdoor temperature is
   taken from the air quality id "A", the chosen wind speed field from
   transmitter 5, and every other field, outdoor humidity among them, keeps
   its group default.
   */
  lemma MappingScenario(choice: int, weatherId: string, soilId: string, mappings: string)
    requires mappings == "outTemp:A windSpeed:5"  // the one value this lemma is about; a parameter rather than a literal keeps the solver from unfolding it
    ensures var t := SensorTable(choice);
            var a := InitTxids(t, weatherId, soilId, mappings);
            && "temp" in a && a["temp"] == "A"
            && t[6].info.wllName in a && a[t[6].info.wllName] == "5"
            && "hum" in a && a["hum"] == weatherId
            && forall l :: 0 <= l < |t| && l != 0 && l != 6 ==>
                 t[l].info.wllName in a && a[t[l].info.wllName] == GroupDefault(t[l].info.group, weatherId, soilId)
  {
    var t := SensorTable(choice);
    ScenarioRows(choice);
    ScenarioWords(mappings);
    ScenarioTokens(t, Words(mappings));
    ScenarioOnTable(t, weatherId, soilId, Words(mappings));
  }
}

=== FILE: resolver.dfy ===
/**
 The resolver: the reading of one device field, taken from the field's
 preferred transmitter when the index has that key, and otherwise from the
 first transmitter, in the configured order, whose key is present.
 */
module Resolver {
  import opened Wrappers
  import opened Readings
  import opened Registry

  /** Whether the index has transmitter `tx`'s key for `field` (present even if its value is null). */
  predicate Has(data: Index, tx: string, field: string) {
    (tx, field) in data
  }

  /**
   Position in `order` (one transmitter id per character) of the first
   transmitter whose key for `field` is in the index.
   */
  function FirstReporting(order: string, data: Index, field: string): (r: Option<nat>)
    ensures r.Some? ==> r.value < |order| && Has(data, [order[r.value]], field)
    ensures r.Some? ==> forall j :: 0 <= j < r.value ==> !Has(data, [order[j]], field)
    ensures r.None? ==> forall j :: 0 <= j < |order| ==> !Has(data, [order[j]], field)
  {
    if order == [] then None
    else if Has(data, [order[0]], field) then Some(0)
    else
      match FirstReporting(order[1..], data, field)
      case None => None
      case Some(i) => Some(i + 1)
  }

  /**
   The value of `field`: the preferred transmitter's when its key is present
   (even when other transmitters report the field too), else the value of
   the first present key in `order`, else null.
   */
  function GetCondition(data: Index, txids: Assignment, order: string, field: string): (v: Value)
    requires field in txids
    ensures Has(data, txids[field], field) ==> v == data[(txids[field], field)]
    ensures !Has(data, txids[field], field) ==>
      forall k :: 0 <= k < |order| && Has(data, [order[k]], field) &&
                  (forall j :: 0 <= j < k ==> !Has(data, [order[j]], field)) ==>
        v == data[([order[k]], field)]
    ensures !Has(data, txids[field], field) && (forall k :: 0 <= k < |order| ==> !Has(data, [order[k]], field)) ==>
      v == Null
  {
    if Has(data, txids[field], field) then data[(txids[field], field)]
    else
      match FirstReporting(order, data, field)
      case None => Null
      case Some(k) =>
        assert forall k' :: 0 <= k' < k ==> !Has(data, [order[k']], field);
        data[([order[k]], field)]
  }

  /** A field no transmitter reports resolves to null. */
  lemma UnreportedIsNull(data: Index, txids: Assignment, order: string, field: string)
    requires field in txids
    requires forall tx :: !Has(data, tx, field)
    ensures GetCondition(data, txids, order, field) == Null
  {
  }

  /**
   A null reported by the preferred transmitter is returned as it is: a
   number from another transmitter does not replace it.
   */
  lemma PreferredNullShadows(data: Index, txids: Assignment, order: string, field: string, other: string)
    requires field in txids
    requires Has(data, txids[field], field) && data[(txids[field], field)] == Null
    requires Has(data, other, field) && data[(other, field)].Num?
    ensures GetCondition(data, txids, order, field) == Null
  {
  }

  /** The preferred transmitter "3" wins over "1", which comes earlier in the order. */
  lemma ScenarioPreferred()
    ensures GetCondition(map[("1", "temp") := Num(70.0), ("3", "temp") := Num(71.0)],
                         map["temp" := "3"], "12345678BIA", "temp") == Num(71.0)
  {
  }

  /** Without the preferred transmitter, the first one in the order that reports wins. */
  lemma ScenarioFallback()
    ensures GetCondition(map[("3", "temp") := Num(71.0), ("8", "temp") := Num(72.0)],
                         map["temp" := "1"], "12348", "temp") == Num(71.0)
  {
    var data := map[("3", "temp") := Num(71.0), ("8", "temp") := Num(72.0)];
    var order := "12348";
    assert [order[2]] == "3";
    assert !Has(data, [order[0]], "temp") && !Has(data, [order[1]], "temp");
  }
}

=== FILE: text.dfy ===
/**
 Text helpers the driver relies on from the host language: splitting a
 string on runs of whitespace, splitting on one separator character, and
 the decimal spelling of an integer (and its inverse).
 */
module Text {
  import opened Wrappers

  /** The ASCII whitespace characters that a no-argument split treats as separators. */
  predicate IsSpace(c: char) {
    c == ' ' || c == '\t' || c == '\n' || c == '\r' || c == '\U{0B}' || c == '\U{0C}'
  }

  predicate NoSpace(s: string) {
    forall i :: 0 <= i < |s| ==> !IsSpace(s[i])
  }

  /** `s` without its leading whitespace. */
  function DropSpaces(s: string): (t: string)
    ensures |t| <= |s| && t == s[|s| - |t|..]
    ensures t == [] || !IsSpace(t[0])
    ensures forall i :: 0 <= i < |s| - |t| ==> IsSpace(s[i])
  {
    if s != [] && IsSpace(s[0]) then DropSpaces(s[1..]) else s
  }

  /** Length of the leading run of non-whitespace characters of `s`. */
  function WordLength(s: string): (n: nat)
    ensures n <= |s|
    ensures NoSpace(s[..n])
    ensures n == |s| || IsSpace(s[n])
  {
    if s == [] || IsSpace(s[0]) then 0 else 1 + WordLength(s[1..])
  }

  /** The maximal runs of non-whitespace characters of `s`, in order. */
  function Words(s: string): (ws: seq<string>)
    ensures forall i :: 0 <= i < |ws| ==> ws[i] != [] && NoSpace(ws[i])
    decreases |s|
  {
    var t := DropSpaces(s);
    if t == [] then []
    else
      var n := WordLength(t);
      [t[..n]] + Words(t[n..])
  }

  /** The words of `ws` with a single space between consecutive words. */
  function Unwords(ws: seq<string>): string {
    if ws == [] then []
    else if |ws| == 1 then ws[0]
    else ws[0] + " " + Unwords(ws[1..])
  }

  lemma {:induction false} WordLengthOfWord(w: string, rest: string)
    requires NoSpace(w)
    requires rest == [] || IsSpace(rest[0])
    ensures WordLength(w + rest) == |w|
    decreases |w|
  {
    if w != [] {
      assert (w + rest)[1..] == w[1..] + rest;
      WordLengthOfWord(w[1..], rest);
    } else {
      assert w + rest == rest;
    }
  }

  lemma WordsOfWord(w: string)
    requires w != [] && NoSpace(w)
    ensures Words(w) == [w]
  {
    WordLengthOfWord(w, []);
    assert w + [] == w;
    assert w[..|w|] == w;
    assert w[|w|..] == [];
  }

  lemma WordsOfWordThenSpace(w: string, tail: string)
    requires w != [] && NoSpace(w)
    ensures Words(w + " " + tail) == [w] + Words(tail)
  {
    var s := w + (" " + tail);
    assert w + " " + tail == s;
    assert DropSpaces(s) == s;
    WordLengthOfWord(w, " " + tail);
    assert s[..|w|] == w;
    assert s[|w|..] == " " + tail;
    assert DropSpaces(" " + tail) == DropSpaces(tail);
  }

  /** One word in front of words that already split back: the whole splits back. */
  lemma UnwordsCons(ws: seq<string>)
    requires |ws| > 1 && ws[0] != [] && NoSpace(ws[0])
    requires Words(Unwords(ws[1..])) == ws[1..]
    ensures Words(Unwords(ws)) == ws
  {
    var u := Unwords(ws[1..]);
    assert Unwords(ws) == ws[0] + " " + u;
    WordsOfWordThenSpace(ws[0], u);
    assert ws == [ws[0]] + ws[1..];
  }

  /** Splitting space-separated words recovers exactly those words. */
  lemma {:induction false} WordsUnwords(ws: seq<string>)
    requires forall i :: 0 <= i < |ws| ==> ws[i] != [] && NoSpace(ws[i])
    ensures Words(Unwords(ws)) == ws
  {
    if |ws| == 1 {
      WordsOfWord(ws[0]);
    } else if |ws| > 1 {
      var tail := ws[1..];
      assert forall i :: 0 <= i < |tail| ==> tail[i] == ws[i + 1];
      WordsUnwords(tail);
      UnwordsCons(ws);
    }
  }

  predicate AllSpace(s: string) {
    forall i :: 0 <= i < |s| ==> IsSpace(s[i])
  }

  /** Leading whitespace never changes the words. */
  lemma {:induction false} WordsAfterSpaces(g: string, t: string)
    requires AllSpace(g)
    ensures Words(g + t) == Words(t)
    decreases |g|
  {
    if g != [] {
      assert (g + t)[1..] == g[1..] + t;
      assert DropSpaces(g + t) == DropSpaces(g[1..] + t);
      WordsAfterSpaces(g[1..], t);
    } else {
      assert g + t == t;
    }
  }

  /** A word followed by nothing or by whitespace is the first word. */
  lemma WordsOfWordThen(w: string, rest: string)
    requires w != [] && NoSpace(w)
    requires rest == [] || IsSpace(rest[0])
    ensures Words(w + rest) == [w] + Words(rest)
  {
    var s := w + rest;
    assert s[0] == w[0];
    assert DropSpaces(s) == s;
    WordLengthOfWord(w, rest);
    assert s[..|w|] == w;
    assert s[|w|..] == rest;
  }

  /**
   Text laid out as `gaps[0] + ws[0] + gaps[1] + ws[1] + ...`: each word
   preceded by its gap.
   */
  function Spread(gaps: seq<string>, ws: seq<string>): string
    requires |gaps| == |ws|
  {
    if ws == [] then [] else gaps[0] + ws[0] + Spread(gaps[1..], ws[1..])
  }

  lemma WordsOfSpaces(t: string)
    requires AllSpace(t)
    ensures Words(t) == []
  {
    WordsAfterSpaces(t, []);
    assert t + [] == t;
  }

  /** A layout whose first gap is non-empty, followed by whitespace, is empty or starts with whitespace. */
  lemma SpreadStartsSpaced(gaps: seq<string>, ws: seq<string>, trail: string)
    requires |gaps| == |ws|
    requires ws != [] ==> gaps[0] != [] && AllSpace(gaps[0])
    requires AllSpace(trail)
    ensures var r := Spread(gaps, ws) + trail; r == [] || IsSpace(r[0])
  {
    if ws != [] {
      assert (Spread(gaps, ws) + trail)[0] == gaps[0][0];
    }
  }

  /** One gap and word in front of a layout whose words split back: the whole splits back. */
  lemma SpreadCons(gaps: seq<string>, ws: seq<string>, trail: string)
    requires |gaps| == |ws| && ws != []
    requires ws[0] != [] && NoSpace(ws[0]) && AllSpace(gaps[0]) && AllSpace(trail)
    requires |ws| > 1 ==> gaps[1] != [] && AllSpace(gaps[1])
    requires Words(Spread(gaps[1..], ws[1..]) + trail) == ws[1..]
    ensures Words(Spread(gaps, ws) + trail) == ws
  {
    var rest := Spread(gaps[1..], ws[1..]) + trail;
    Regroup(gaps[0], ws[0], Spread(gaps[1..], ws[1..]), trail);
    SpreadStartsSpaced(gaps[1..], ws[1..], trail);
    GapThenWord(gaps[0], ws[0], rest);
    HeadTail(ws);
  }

  lemma Regroup(a: string, b: string, c: string, d: string)
    ensures a + b + c + d == a + (b + (c + d))
  {
  }

  lemma HeadTail<T>(s: seq<T>)
    requires s != []
    ensures s == [s[0]] + s[1..]
  {
  }

  lemma GapThenWord(g: string, w: string, rest: string)
    requires AllSpace(g) && w != [] && NoSpace(w)
    requires rest == [] || IsSpace(rest[0])
    ensures Words(g + (w + rest)) == [w] + Words(rest)
  {
    WordsAfterSpaces(g, w + rest);
    WordsOfWordThen(w, rest);
  }

  /**
   Splitting on whitespace finds exactly the words of any layout: words
   separated by non-empty whitespace runs, with any whitespace before the
   first and after the last.
   */
  lemma {:induction false} WordsOfSpread(gaps: seq<string>, ws: seq<string>, trail: string)
    requires |gaps| == |ws|
    requires forall i :: 0 <= i < |ws| ==> ws[i] != [] && NoSpace(ws[i])
    requires forall i :: 0 <= i < |gaps| ==> AllSpace(gaps[i])
    requires forall i :: 0 < i < |gaps| ==> gaps[i] != []
    requires AllSpace(trail)
    ensures Words(Spread(gaps, ws) + trail) == ws
    decreases |ws|
  {
    if ws == [] {
      assert Spread(gaps, ws) + trail == trail;
      WordsOfSpaces(trail);
    } else {
      var gs, rs := gaps[1..], ws[1..];
      assert forall i :: 0 <= i < |rs| ==> rs[i] == ws[i + 1] && gs[i] == gaps[i + 1];
      WordsOfSpread(gs, rs, trail);
      SpreadCons(gaps, ws, trail);
    }
  }

  /** Number of occurrences of `c` in `s`. */
  function Count(s: string, c: char): nat {
    if s == [] then 0 else (if s[0] == c then 1 else 0) + Count(s[1..], c)
  }

  lemma {:induction false} CountSplit(s: string, c: char, i: nat)
    requires i <= |s|
    ensures Count(s, c) == Count(s[..i], c) + Count(s[i..], c)
    decreases i
  {
    if i > 0 {
      assert s[..i][1..] == s[1..][..i - 1];
      assert s[i..] == s[1..][i - 1..];
      CountSplit(s[1..], c, i - 1);
    } else {
      assert s[i..] == s;
    }
  }

  lemma {:induction false} CountAbsent(s: string, c: char)
    requires c !in s
    ensures Count(s, c) == 0
  {
    if s != [] {
      CountAbsent(s[1..], c);
    }
  }

  /** The pieces of `s` between occurrences of `sep`, as a one-character split does. */
  function Split(s: string, sep: char): (parts: seq<string>)
    ensures |parts| >= 1
    ensures forall i :: 0 <= i < |parts| ==> sep !in parts[i]
  {
    if s == [] then [[]]
    else
      var rest := Split(s[1..], sep);
      if s[0] == sep then [[]] + rest
      else [[s[0]] + rest[0]] + rest[1..]
  }

  /** The parts joined back with `sep` between consecutive parts. */
  function Join(parts: seq<string>, sep: char): string
    requires |parts| >= 1
  {
    if |parts| == 1 then parts[0] else parts[0] + [sep] + Join(parts[1..], sep)
  }

  /** Joining with a character put in front of the first part puts it in front of the whole. */
  lemma JoinExtendFirst(c: char, parts: seq<string>, sep: char)
    requires |parts| >= 1
    ensures Join([[c] + parts[0]] + parts[1..], sep) == [c] + Join(parts, sep)
  {
    var q := [[c] + parts[0]] + parts[1..];
    assert q[1..] == parts[1..];
  }

  /** Splitting on a separator and joining back is the identity, and there is one more part than separators. */
  lemma {:induction false} SplitJoin(s: string, sep: char)
    ensures Join(Split(s, sep), sep) == s
    ensures |Split(s, sep)| == Count(s, sep) + 1
  {
    if s != [] {
      var rest := Split(s[1..], sep);
      SplitJoin(s[1..], sep);
      if s[0] == sep {
        assert ([[]] + rest)[1..] == rest;
      } else {
        JoinExtendFirst(s[0], rest, sep);
      }
      assert s == [s[0]] + s[1..];
    }
  }

  /** Text with the separator exactly once determines the parts on either side of it. */
  lemma SplitAtSoleSep(a: string, b: string, c: string, d: string, sep: char)
    requires sep !in a && sep !in b && sep !in c && sep !in d
    requires a + [sep] + b == c + [sep] + d
    ensures a == c && b == d
  {
    var s := a + [sep] + b;
    assert forall i :: 0 <= i < |a| ==> s[i] == a[i];
    assert forall i :: 0 <= i < |c| ==> s[i] == c[i];
    assert s[|a|] == sep && s[|c|] == sep;
    assert a == s[..|a|] && c == s[..|c|];
    assert b == s[|a| + 1..] && d == s[|c| + 1..];
  }

  function DigitChar(d: nat): (c: char)
    requires d < 10
    ensures '0' <= c <= '9'
  {
    "0123456789"[d]
  }

  function DigitValue(c: char): (d: nat)
    requires '0' <= c <= '9'
    ensures d < 10
  {
    (c as int - '0' as int) as nat
  }

  predicate IsDigits(s: string) {
    s != [] && forall i :: 0 <= i < |s| ==> '0' <= s[i] <= '9'
  }

  /** Decimal spelling of a natural number, without leading zeros. */
  function NatToDecimal(n: nat): (s: string)
    ensures IsDigits(s)
    ensures n > 0 ==> s[0] != '0'
    ensures n == 0 ==> s == "0"
  {
    if n < 10 then [DigitChar(n)] else NatToDecimal(n / 10) + [DigitChar(n % 10)]
  }

  /** Decimal spelling of an integer, as the host language's `str` prints it. */
  function IntToDecimal(i: int): (s: string)
    ensures i >= 0 ==> IsDigits(s) && (s[0] != '0' || s == "0")
    ensures i < 0 ==> |s| >= 2 && s[0] == '-' && IsDigits(s[1..]) && s[1] != '0'
  {
    if i < 0 then "-" + NatToDecimal(-i) else NatToDecimal(i)
  }

  /** The number a string of decimal digits denotes (leading zeros allowed). */
  function DigitsValue(s: string): nat
    requires IsDigits(s)
  {
    if |s| == 1 then DigitValue(s[0])
    else 10 * DigitsValue(s[..|s| - 1]) + DigitValue(s[|s| - 1])
  }

  /** Integer conversion of an optional minus sign followed by decimal digits. */
  function ParseInt(s: string): (r: Option<int>)
    ensures r.Some? <==> IsDigits(s) || (|s| >= 2 && s[0] == '-' && IsDigits(s[1..]))
  {
    if IsDigits(s) then Some(DigitsValue(s))
    else if |s| >= 2 && s[0] == '-' && IsDigits(s[1..]) then
      var v: int := DigitsValue(s[1..]); Some(-v)
    else None
  }

  lemma {:induction false} DigitsOfNat(n: nat)
    ensures DigitsValue(NatToDecimal(n)) == n
  {
    if n >= 10 {
      var s := NatToDecimal(n);
      assert s[..|s| - 1] == NatToDecimal(n / 10);
      DigitsOfNat(n / 10);
    } else {
      assert "0123456789"[n] as int - '0' as int == n;
    }
  }

  /** Printing an integer and converting the text back yields the same integer. */
  lemma {:induction false} ParseIntToDecimal(i: int)
    ensures ParseInt(IntToDecimal(i)) == Some(i)
  {
    if i < 0 {
      var d := NatToDecimal(-i);
      assert IntToDecimal(i) == "-" + d;
      DigitsOfNat(-i);
      ParseNegative(d);
    } else {
      assert IntToDecimal(i) == NatToDecimal(i);
      DigitsOfNat(i);
    }
  }

  /** A minus sign followed by digits reads as the negated digits' value. */
  lemma ParseNegative(d: string)
    requires IsDigits(d)
    ensures ParseInt("-" + d) == Some(-(DigitsValue(d) as int))
  {
    var s := "-" + d;
    assert s[0] == '-' && !IsDigits(s);
    assert s[1..] == d;
  }
}

=== FILE: wrappers.dfy ===
/** The conventional Some/None datatype, used for lookups that may miss. */
module Wrappers {

  datatype Option<+T> = None | Some(value: T) {

    /** Returns the value held in Some, or `default` when None. */
    function GetOr(default: T): T {
      match this
      case Some(v) => v
      case None => default
    }
  }
}
